=== FILE: README.md ===
# Lesson-presentation orchestrator, modelled in Dafny

This project models the decision and transformation logic of `AgentOrchestrator`
in `agents.js`. The orchestrator turns one teacher message into one of two things:

- A **fresh build**. Clarification reads the constraints out of the message. The
  outline picks between four and nine blocks. Generation makes one section per
  block. Verification stamps every section with a fixed note.
- A **scoped edit**. It rewrites the sections carrying the id of one positional
  target, and keeps every other section as it was.

Conversation memory carries the sections, the compact summary and the constraints
from one message to the next.

The simulated model and asset calls only wait and then return fixed payloads. The
model treats them as pure functions of their inputs (`Gateway`).

Modules, in dependency order:

- `Wrappers`: `Option`.
- `Text`: character classes, case-insensitive word tests, the leftmost-position
  scan of a regular-expression engine, greedy runs, decimal rendering and reading,
  and first-occurrence replacement.
- `Gateway`: the stub payloads.
- `Extraction`: the edit-intent test, `pickDepth`, the density test, `pickNumber`,
  `pickGrade`, and `runClarificationFlow` with its compact summary.
- `Outline`: `buildOutline` and `sectionTheme`.
- `Sections`: `generateSections` and `verifyPresentation`.
- `ScopedEdit`: `applyScopedEdit`.
- `Orchestrator`: `processTeacherMessage` as a step function over memory. It
  returns the new memory, the response and the progress events. It also defines a
  run over a sequence of messages and the invariant that memory keeps.

The two capturing patterns are `(\d{1,2})\s*(min|minute)` and `grade\s*(\d+)`.
Each is modelled twice:

- as a per-position scanner (`DurationAt`, `GradeAt`) fed to the leftmost scan;
- as a declarative "the pattern can match here with these widths" predicate
  (`DurationMatch`, `GradeMatch`).

Lemmas show the two agree. The scanner captures exactly where the pattern matches,
at the leftmost such position, and with the greedy width. For example, `123 min`
reads as 23. No match can start at the `1`, because `\d{1,2}` cannot take three
digits, so the leftmost match starts at the `2`.

The edit-intent test finds the edit words anywhere, inside longer words too, so
`credit` counts as an edit request. Routing is a single boolean gate.

Case-insensitive matching is ASCII case folding. Under a regular expression with
the `i` flag and no `u` flag, a non-ASCII character never folds to an ASCII
letter, and every pattern letter here is ASCII.

## Model

| member | source | states |
|---|---|---|
| Orchestrator.ProcessTeacherMessage | agents.js:61-82 | a turn is a scoped edit exactly when the message is an edit request and memory holds sections, otherwise a fresh build; the presentation returned is the section list memory now holds |
| Orchestrator.EditTurnKeepsMemory | agents.js:195-228 | an edit turn keeps the summary and the constraints, replaces the sections with the scoped edit of the old list (so the ids are kept), reports the target's id in the patch meta, and emits three events |
| Orchestrator.FreshTurnSetsMemory | agents.js:67-81 | a fresh turn stores the clarified constraints and their compact summary, one section per outline block, a build meta with three validators, and nine events |
| Orchestrator.FreshTurnReadsMessage | agents.js:87-101 | a fresh turn stores the message as topic, a deep depth exactly when a deep word occurs, a light depth exactly when a light word and no deep word occur, a dense density exactly when `dense` or `detailed` occurs, the default duration and learner level where their patterns match nowhere, and the compact line of what it stored |
| Orchestrator.FreshTurnReadsDuration | agents.js:89 | when the duration pattern first matches at a position, a fresh turn stores the number spelled by the digits there, at least as many as that match takes |
| Orchestrator.FreshTurnReadsGrade | agents.js:92 | when the grade pattern first matches at a position, a fresh turn stores `grade ` and the digits there, at least as many as that match takes |
| Orchestrator.RoutesToEdit | agents.js:62-63 | a message routes to the scoped edit exactly when it mentions an edit word and memory holds sections |
| Orchestrator.EditReply | agents.js:221 | the reply names the target's title right after its fixed opening |
| Orchestrator.EditEvents | agents.js:193-215 | an edit emits three events: the master agent running, then the patch agent done naming the target's id, then the verifiers done |
| Orchestrator.Run | agents.js:61-82 | a run of turns reports one mode per message, and a turn is an edit only when its message mentions an edit word |
| Orchestrator.FreshBuildSections | agents.js:68-72 | the sections a fresh turn stores are the outline's blocks, in order, each with the verifier's note; their ids are distinct; the opening and closing purposes sit at the two ends |
| Orchestrator.FreshInteractionNamesPart | agents.js:155 | the reflective prompt of the section at position i that a fresh turn stores names part `sec` i+1, with the id's underscore turned into a space |
| Orchestrator.BuiltInteractionNamesPart | agents.js:155 | the reflective prompt of the section a build makes at position i names part `sec` i+1 |
| Orchestrator.FreshBuildEventsOrder | agents.js:85-178 | the nine events of a fresh build open each of the four phases with a running event, and the narrative and verifier events report the section and validator counts |
| Orchestrator.FreshTurnEvents | agents.js:135-178 | the narrative event of a fresh turn names the number of sections memory now holds, and the last event names the validator count |
| Orchestrator.EditWithoutSectionsBuilds | agents.js:62-65 | an edit-worded message sent to a new orchestrator still starts a fresh build |
| Orchestrator.WellFormed | agents.js:72-74 | the memory invariant the turns keep: distinct section ids, constraints known exactly when sections exist, four to nine sections once built, and a verifier's note on every section |
| Orchestrator.InitialMemoryWellFormed | agents.js:44-49 | the starting memory satisfies the memory invariant |
| Orchestrator.InitialMemory | agents.js:44-49 | a new orchestrator's memory has an empty summary, no constraints and no sections |
| Orchestrator.BuildPresentation | agents.js:68-70 | outline, generation and verification produce one verified section per outline block, with three validators counted |
| Orchestrator.FreshBuild | agents.js:67-81 | a fresh build stores the intake's constraints and summary and the verified sections, returns those sections as the presentation, and emits nine events |
| Orchestrator.FreshBuildEvents | agents.js:85-178 | a fresh build emits nine events, from the master agent three times, then the narrative agent, the swarm, the visual agent, the interaction agent, and the verifiers twice |
| Orchestrator.ClarificationEvents | agents.js:85-109 | the clarification phase emits the master agent running, then done with a text that ends with the compact summary |
| Orchestrator.OutlineEvents | agents.js:119-135 | the outline phase emits the master agent running, then the narrative agent done |
| Orchestrator.GenerationEvents | agents.js:140-160 | the generation phase emits the swarm running, then the visual and interaction agents done |
| Orchestrator.VerificationEvents | agents.js:165-178 | the verification phase emits the verifiers running, then done |
| Orchestrator.ScopedEditStep | agents.js:192-228 | an edit step keeps the summary and the constraints, stores and returns the scoped edit of the old list, replies with the template naming the target's title, reports the target's id in the meta, and emits the three edit events naming the target's id |
| Orchestrator.EditTurnPreservesWellFormed | agents.js:202-217 | an edit turn keeps memory well formed |
| Orchestrator.FreshTurnWellFormed | agents.js:67-74 | a fresh turn leaves memory well formed whatever it held before |
| Orchestrator.StepSectionsExist | agents.js:63-74 | after one turn, memory holds sections exactly when it did before or the turn was a fresh build |
| Orchestrator.StepPreservesWellFormed | agents.js:61-82 | every turn keeps memory well formed: distinct ids, constraints present exactly when sections are, four to nine sections once built, a note on every section |
| Orchestrator.RunPreservesWellFormed | agents.js:61-82 | the memory invariant holds after any sequence of turns |
| Orchestrator.SectionsExistIffBuilt | agents.js:63-74 | after a sequence of turns, memory holds sections exactly when it did before or one of the turns was a fresh build |
| Orchestrator.SectionsIffSomeFreshBuild | agents.js:44-74 | from a new orchestrator, memory holds sections exactly when some turn was a fresh build |
| Orchestrator.RepeatedEditRequest | agents.js:195-217 | sending the same edit request twice patches the same section id both times, and that section's content carries the addendum twice |
| Extraction.IsEditRequest | agents.js:62 | a message is an edit request exactly when one of change, edit, revise, update, modify occurs in it, in any letter case |
| Extraction.EditWordInsideWord | agents.js:62 | edit words are matched inside longer words: `credit` reads as an edit request |
| Extraction.PickDepth | agents.js:231-239 | deep exactly when deep or advanced occurs; light exactly when basic or intro occurs and neither deep word does; medium otherwise |
| Extraction.PickDensity | agents.js:91 | dense exactly when dense or detailed occurs |
| Extraction.DurationMatchIsGreedy | agents.js:247 | any way the duration pattern matches uses exactly the greedy whitespace run, and `min` follows it (`minute` only matches where `min` does) |
| Extraction.DurationAtIffMatch | agents.js:247 | the per-position duration scanner captures exactly where the duration pattern can match |
| Extraction.DurationCaptureExtendsMatch | agents.js:247 | wherever the pattern matches with some number of digits, the scanner captures a number spelled by at least as many digits, read the way the pattern matches |
| Extraction.DurationScanFindsLeftmost | agents.js:247 | the duration scan stops exactly at the first position where the pattern matches, and finds nothing when it matches nowhere |
| Extraction.PickNumber | agents.js:246-249 | the duration is below one hundred or is the fallback |
| Extraction.DurationAt | agents.js:247 | what the duration pattern captures at one position is below one hundred |
| Extraction.PickNumberDefault | agents.js:248 | with no match anywhere the fallback is returned |
| Extraction.PickNumberUsesLeftmostCapture | agents.js:247-248 | at the leftmost position where the pattern matches, `pickNumber` returns what the scanner captures there |
| Extraction.PickNumberLeftmost | agents.js:247-248 | when the pattern matches at a position with some digits and nowhere earlier, the duration is the number spelled by at least that many digits there, so two whenever the pattern allows |
| Extraction.NoDurationBeforeThirdDigit | agents.js:247 | no match of the duration pattern starts at a digit followed by two more digits, because one or two digits must be followed directly by whitespace or `min` |
| Extraction.TwentyThreeMinutesAt | agents.js:247-248 | wherever `23 min` occurs, the duration pattern captures 23 at its first digit |
| Extraction.PickNumberFromSecond | agents.js:247-248 | when nothing is captured at the first position and something is at the second, the duration is the second position's capture |
| Extraction.ThreeDigitMinutes | agents.js:247-248 | the duration read from `123 min` with the default fallback is 23, not 123 and not the fallback |
| Text.TwoDigitsValue | agents.js:248 | two digits read as tens then units, as `Number` reads them |
| Extraction.GradeMatchIsGreedy | agents.js:242 | any way the grade pattern matches uses exactly the greedy whitespace run and at most the greedy digit run |
| Extraction.GradeAtIffMatch | agents.js:242 | the per-position grade scanner captures exactly where the grade pattern can match |
| Extraction.GradeAtIsLongest | agents.js:242 | where the grade scanner captures, it captures the longest digit string the pattern admits |
| Extraction.GradeScanFindsLeftmost | agents.js:242 | the grade scan stops exactly at the first position where the pattern matches |
| Extraction.PickGrade | agents.js:241-244 | the learner level is either `mixed classroom` or `grade ` followed by at least one digit |
| Extraction.GradeAt | agents.js:242 | what the grade pattern captures at one position is a non-empty run of digits |
| Extraction.PickGradeDefault | agents.js:243 | with no grade match anywhere the learner level is `mixed classroom` |
| Extraction.GradeCaptureExtendsMatch | agents.js:242 | wherever the grade pattern matches, the scanner captures after the same whitespace at least as many digits |
| Extraction.PickGradeUsesLeftmostCapture | agents.js:242-243 | at the leftmost position where the grade pattern matches, `pickGrade` returns `grade ` and the scanner's capture there |
| Extraction.PickGradeLeftmost | agents.js:242-243 | when the grade pattern matches at a position and nowhere earlier, the learner level is `grade ` followed by the longest digit string the pattern takes there, leading zeros kept |
| Extraction.RunClarification | agents.js:87-115 | the topic is the whole message; the depth is deep exactly when a deep word occurs and light exactly when a light word and no deep word occur; the density is dense exactly when `dense` or `detailed` occurs; the duration is below one hundred; the learner level is the default or `grade ` and digits; there are three follow-up questions; the summary is the compact line of these constraints |
| Extraction.CompactSummary | agents.js:101 | the compact line is longer than the topic and starts with the topic and the bar that separates it from the duration |
| Extraction.SummaryEndsWithDepthAndLevel | agents.js:101 | the compact line ends with `min`, the separator, the depth's name, ` depth`, the separator and the learner level |
| Extraction.ClarificationDefaults | agents.js:89-92 | with no `min` in the message the duration is ten minutes; with no `grade` the learner level is `mixed classroom` |
| Extraction.SummaryRecoversDuration | agents.js:101 | the digits that follow the topic in the compact summary read back as the duration |
| Outline.SectionCount | agents.js:121 | the section count is `Math.round(minutes / 2)` clamped to the range four to nine |
| Outline.RoundHalfOfNat | agents.js:121 | for whole minutes, rounding half the duration to the nearest integer (halves up) is `(d + 1) / 2` |
| Outline.SectionCountExamples | agents.js:121 | ten minutes give five sections, two give four, thirty give nine |
| Outline.ThemeLabel | agents.js:251-254 | the first eight positions take the label list in order; every later position takes `Extension` |
| Outline.SectionTheme | agents.js:251-254 | the theme is the position's label, then the dash, then the topic; from the ninth position on the label is `Extension` |
| Outline.OutlineBlock | agents.js:122-127 | the first block opens with the hook purpose and the opening scene, the last of several closes with the synthesis purpose, the others build concepts, and every later block's transition starts with the transition phrase |
| Outline.BuildOutline | agents.js:121-127 | the outline has the section count's length; the first block has the opening purpose and transition, the last the closing purpose, every other block the middle purpose |
| Outline.OutlineIdsNamePositions | agents.js:123 | every id is `sec_` followed by digits that read back as the block's 1-based position |
| Outline.OutlineIdAt | agents.js:123 | the id at position i is `sec_` followed by i+1 in decimal |
| Outline.OutlineIdsDistinct | agents.js:122-123 | no two blocks of an outline share an id |
| Outline.OutlineTransitionsNamePredecessor | agents.js:126 | every transition after the first names the number of the preceding block |
| Outline.OutlineTitles | agents.js:124 | every title is `Part`, the block's number, its position's label (rotation, then `Extension`), a dash and the topic |
| Sections.GenerateSection | agents.js:144-156 | a generated section keeps its block and has no note yet; its html is the content call's output between the opening paragraph tag and the fixed closing sentence; its interaction is the reflective prompt for the block's id; it stores an `image`-typed asset for the title's visual and a `chart`-typed spec whose nested title names the block's title |
| Gateway.ModelOutput | agents.js:15 | the model stub's output is its fixed opening followed by the purpose it was called for |
| Gateway.GenerateImage | agents.js:22-25 | the image stub returns an `image`-typed asset for the prompt given, at the placeholder address |
| Gateway.GenerateChartSpec | agents.js:27-38 | the chart stub returns a `chart`-typed `chart.js` spec titled after the topic, with four labels and four rising values |
| Sections.InteractionPrompt | agents.js:155 | the prompt wraps the id in its fixed opening and closing, keeping the id's length, and an id without an underscore appears unchanged |
| Sections.GenerateSections | agents.js:142-161 | one section per block, in outline order |
| Sections.GenerationKeepsOutline | agents.js:143-156 | generation keeps the length, the order and every block field, so the ids are the outline's ids |
| Sections.InteractionNamesPart | agents.js:155 | for an outline id, the reflective prompt names the part as `sec N` |
| Sections.VerifyPresentation | agents.js:167-189 | verification keeps the length and every field but the note, sets the fixed note on every section, and counts three validators |
| Sections.VerifyIsIdempotent | agents.js:173-176 | verifying an already verified list changes nothing |
| Sections.VerifyKeepsIds | agents.js:173-176 | verification keeps the ids in order, and every section it returns carries the passed note |
| ScopedEdit.TargetIndex | agents.js:195 | the target is the second section when there is one and the first otherwise |
| ScopedEdit.PatchSection | agents.js:206-211 | a patched section keeps its block and assets, gains the addendum and the interaction suffix, takes the re-verified note, and differs from the original |
| ScopedEdit.ApplyScopedEdit | agents.js:202-212 | the edit keeps the length, the ids and the blocks; sections whose id is not the target's are unchanged, and those whose id is the target's are patched |
| ScopedEdit.EditChangesOnlyTarget | agents.js:202-212 | with distinct ids, exactly the target changes, and only in its html, interaction and note |
| ScopedEdit.EditFollowsTargetId | agents.js:203 | any section that shares the target's id is rewritten as well |
| ScopedEdit.RepeatedEditAccumulates | agents.js:195-212 | a second identical edit picks the same target, and its html and interaction carry the additions twice |
| Text.ContainsCI | agents.js:62 | the case-insensitive word test succeeds exactly when the word occurs at some position |
| Text.Leftmost | agents.js:242-248 | the start-position scan a match without the global flag performs: the first position that satisfies the test, with none before it, or none at all |
| Text.IsSpace | agents.js:247 | a `\s` character is never a digit and never changes under case folding |
| Text.DigitsValue | agents.js:248 | reading digits as `Number` does, a leading zero contributes nothing |
| Text.ContainsAnyIgnoresCase | agents.js:62 | upper-casing the message never changes whether one of a list of words occurs in it |
| Text.ContainsAnyCI | agents.js:62 | the word test succeeds exactly when one of the words occurs, ignoring ASCII case, somewhere in the message |
| Text.NatToString | agents.js:123 | a number renders as at least one decimal digit with no leading zero |
| Text.ReplaceFirst | agents.js:155 | replacing the first underscore keeps the length, changes nothing when there is none, and otherwise changes only the first one |
| Text.DigitsValueOfNatToString | agents.js:101 | the decimal rendering of a number reads back as that number |
| Text.NatToStringInjective | agents.js:123 | distinct numbers render differently, so the numbered ids differ |

## Left out

- The stubs' waiting times, their `model`, `tokenBudget` and `inputDigest` fields, and the inputs the orchestrator passes to them. No decision reads any of these.
- `Promise.all` concurrency. Each combined call is modelled as its three results in order. The verifier's three results are counted and never inspected; the generation call's text, image and chart are stored as returned.
- Event timestamps. An event is its agent, status and message. `onAgentEvent` is not modelled; each turn returns its events in emission order instead.
- Turns never overlap. In the program a second message can start while a turn waits on a stub, and `applyScopedEdit` reads the sections in memory both before and after its model call, so a build that finishes in between would be edited by the old target's id and the reply would name the old title. Each modelled turn runs to completion on the memory the previous one left.
- `teacherProfile`. It is initialised and never read.
- `app.js` and the user interface. They are not part of this model.
- Characters are Unicode scalar values rather than UTF-16 code units. Only ASCII letters, ASCII digits and `\s` characters take part in any test, so this changes no decision.
- ScopedEdit.ApplyScopedEdit: requires a non-empty section list. On an empty list the source throws when it reads the target's id. Its only caller reaches it only when sections exist.
- Orchestrator.FreshTurnEvents: states the counts in the narrative and verifier events, not every event's text; `FreshBuildEventsOrder` states the running/done order.

=== FILE: edit.dfy ===
/** The scoped edit (`applyScopedEdit`): a fixed positional target, and a rewrite of
    the sections carrying the target's id, leaving every other section as it was. */
module ScopedEdit {
  import opened Wrappers
  import opened Text
  import opened Sections

  const AddendumPrefix: string := "<p><em>Teacher-requested update:</em> "
  const AddendumSuffix: string := "</p>"
  const InteractionSuffix: string := " (Updated to reflect teacher change.)"
  const ReverifiedNote: string := "Re-verified after scoped patch."

  /** The edit target: the second section when there is one, else the first. The
      request text plays no part in the choice. */
  function TargetIndex(sections: seq<Section>): (t: nat)
    requires |sections| > 0
    ensures t < |sections|
    ensures t == 1 <==> |sections| >= 2
  {
    if |sections| >= 2 then 1 else 0
  }

  /** The emphasised paragraph appended to the target's content. */
  function Addendum(request: string): string {
    AddendumPrefix + request + AddendumSuffix
  }

  /** The rewrite applied to a section the edit reaches. */
  function PatchSection(s: Section, request: string): (p: Section)
    ensures p.block == s.block && p.image == s.image && p.chart == s.chart
    ensures p.html == s.html + Addendum(request)
    ensures p.interaction == s.interaction + InteractionSuffix
    ensures p.verificationNote == Some(ReverifiedNote)
    ensures p != s
  {
    var p := s.(html := s.html + Addendum(request),
                interaction := s.interaction + InteractionSuffix,
                verificationNote := Some(ReverifiedNote));
    assert |p.html| > |s.html|;
    p
  }

  /** `applyScopedEdit(request)` on the sections in memory, without its model call
      and progress events: every section whose id is the target's is rewritten,
      every other one is returned as it was. */
  function ApplyScopedEdit(sections: seq<Section>, request: string): (r: seq<Section>)
    requires |sections| > 0
    ensures |r| == |sections|
    ensures SectionIds(r) == SectionIds(sections)
    ensures forall i :: 0 <= i < |r| ==> r[i].block == sections[i].block
    ensures forall i :: 0 <= i < |r| && sections[i].Id() != sections[TargetIndex(sections)].Id() ==>
      r[i] == sections[i]
    ensures forall i :: 0 <= i < |r| && sections[i].Id() == sections[TargetIndex(sections)].Id() ==>
      r[i] == PatchSection(sections[i], request)
  {
    var target := sections[TargetIndex(sections)];
    seq(|sections|, i requires 0 <= i < |sections| =>
      if sections[i].Id() != target.Id() then sections[i] else PatchSection(sections[i], request))
  }

  /** With distinct ids, the edit changes exactly one section, the target, and
      changes it in exactly the three patched fields. */
  lemma EditChangesOnlyTarget(sections: seq<Section>, request: string)
    requires |sections| > 0
    requires Distinct(SectionIds(sections))
    ensures
      var r := ApplyScopedEdit(sections, request);
      var t := TargetIndex(sections);
      && (forall i :: 0 <= i < |sections| ==> (r[i] != sections[i] <==> i == t))
      && r[t] == sections[t].(html := sections[t].html + Addendum(request),
                              interaction := sections[t].interaction + InteractionSuffix,
                              verificationNote := Some(ReverifiedNote))
  {
    var r := ApplyScopedEdit(sections, request);
    var t := TargetIndex(sections);
    var ids := SectionIds(sections);
    forall i | 0 <= i < |sections| && i != t ensures r[i] == sections[i] {
      assert ids[i] != ids[t];
    }
  }

  /** Without distinct ids the edit follows the id, not the position: every section
      that shares the target's id is rewritten too. */
  lemma EditFollowsTargetId(sections: seq<Section>, request: string, i: nat)
    requires |sections| > 0
    requires i < |sections| && sections[i].Id() == sections[TargetIndex(sections)].Id()
    ensures ApplyScopedEdit(sections, request)[i] != sections[i]
  {
  }

  /** Repeating an edit picks the same target again, but its content grows: the
      addendum appears twice. */
  lemma RepeatedEditAccumulates(sections: seq<Section>, request: string)
    requires |sections| > 0
    requires Distinct(SectionIds(sections))
    ensures
      var once := ApplyScopedEdit(sections, request);
      var twice := ApplyScopedEdit(once, request);
      var t := TargetIndex(sections);
      && TargetIndex(once) == t
      && twice[t].html == sections[t].html + Addendum(request) + Addendum(request)
      && twice[t].interaction == sections[t].interaction + InteractionSuffix + InteractionSuffix
      && twice != once
  {
    var once := ApplyScopedEdit(sections, request);
    assert SectionIds(once) == SectionIds(sections);
    EditChangesOnlyTarget(sections, request);
    EditChangesOnlyTarget(once, request);
  }
}

=== FILE: extraction.dfy ===
/** The clarification phase: routing of a teacher message, and the four independent
    rules that read constraints (duration, depth, density, learner level) out of the
    free text, plus the compact summary kept in memory. */
module Extraction {
  import opened Wrappers
  import opened Text

  datatype Depth = Light | Medium | Deep {
    function Name(): string {
      match this
      case Light => "light"
      case Medium => "medium"
      case Deep => "deep"
    }
  }

  datatype Density = Balanced | Dense

  datatype Constraints = Constraints(
    topic: string,
    durationMinutes: nat,
    depth: Depth,
    density: Density,
    learnerLevel: string)

  /** What the clarification phase hands to outline construction. */
  datatype Intake = Intake(constraints: Constraints, followUps: seq<string>, compactSummary: string)

  const EditWords: seq<string> := ["change", "edit", "revise", "update", "modify"]
  const DeepWords: seq<string> := ["deep", "advanced"]
  const LightWords: seq<string> := ["basic", "intro"]
  const DenseWords: seq<string> := ["dense", "detailed"]

  const DefaultDuration: nat := 10
  const DefaultLearnerLevel: string := "mixed classroom"

  const FollowUps: seq<string> := [
    "Do you want checkpoints/quizzes after each section?",
    "Should visuals be minimal, balanced, or highly animated?",
    "Any must-include examples from classroom context?"
  ]

  /** The message reads as an edit request: one of the edit words occurs in it,
      in any letter case, possibly inside a longer word. */
  predicate IsEditRequest(message: string)
    ensures IsEditRequest(message) <==> Mentions(message, EditWords)
  {
    ContainsAnyCI(message, EditWords)
  }

  /** The edit words are found inside longer words too: a message that only says
      `credit` reads as an edit request. */
  lemma EditWordInsideWord()
    ensures IsEditRequest("credit")
  {
    assert OccursAt("credit", EditWords[1], 2);
  }

  /** Depth: a mention of deep/advanced wins over one of basic/intro. */
  function PickDepth(message: string): (r: Depth)
    ensures r == Deep <==> Mentions(message, DeepWords)
    ensures r == Light <==> Mentions(message, LightWords) && !Mentions(message, DeepWords)
    ensures r == Medium <==> !Mentions(message, LightWords) && !Mentions(message, DeepWords)
  {
    if ContainsAnyCI(message, DeepWords) then Deep
    else if ContainsAnyCI(message, LightWords) then Light
    else Medium
  }

  function PickDensity(message: string): (r: Density)
    ensures r == Dense <==> Mentions(message, DenseWords)
  {
    if ContainsAnyCI(message, DenseWords) then Dense else Balanced
  }

  /* ---------- duration: (\d{1,2})\s*(min|minute), case-insensitive ---------- */

  /** The text after the digits reads `min`, after any whitespace. */
  predicate MinAfterSpaces(s: string, j: nat)
    requires j <= |s|
  {
    OccursAt(s, "min", j + RunFrom(s, j, IsSpace))
  }

  /** What the duration pattern captures when the engine starts at `i`: two digits
      are tried before one, whitespace is taken greedily, and `minute` can only
      match where `min` already does. */
  function DurationAt(s: string, i: nat): (r: Option<nat>)
    ensures r.Some? ==> r.value < 100
  {
    if i + 2 <= |s| && IsDigit(s[i]) && IsDigit(s[i + 1]) && MinAfterSpaces(s, i + 2) then
      var digits := s[i..i + 2];
      TwoDigitsBound(digits);
      Some(DigitsValue(digits))
    else if i + 1 <= |s| && IsDigit(s[i]) && MinAfterSpaces(s, i + 1) then
      var digits := s[i..i + 1];
      TwoDigitsBound(digits);
      Some(DigitsValue(digits))
    else
      None
  }

  /** The duration pattern can match at `i` with `k` digits followed by `w`
      whitespace characters: the pattern's own reading, with no preference among
      alternatives. */
  ghost predicate DurationMatch(s: string, i: nat, k: nat, w: nat) {
    && 1 <= k <= 2
    && i + k + w <= |s|
    && All(s, i, i + k, IsDigit)
    && All(s, i + k, i + k + w, IsSpace)
    && (OccursAt(s, "min", i + k + w) || OccursAt(s, "minute", i + k + w))
  }

  ghost predicate DurationMatchesAt(s: string, i: nat) {
    exists k, w :: DurationMatch(s, i, k, w)
  }

  /** The leftmost position at which the duration scanner captures. */
  function FirstDurationAt(s: string): (r: Option<nat>)
    ensures r.Some? ==> r.value < |s| && DurationAt(s, r.value).Some?
    ensures r.Some? ==> forall j: nat :: j < r.value ==> DurationAt(s, j).None?
    ensures r.None? ==> forall j: nat :: j < |s| ==> DurationAt(s, j).None?
  {
    var p := (i: nat) => DurationAt(s, i).Some?;
    assert forall j: nat :: p(j) == DurationAt(s, j).Some?;
    Leftmost(p, 0, |s|)
  }

  /** `pickNumber(message, fallback)`: the value captured at the leftmost position
      where the duration pattern matches, or `fallback`. */
  function PickNumber(message: string, fallback: nat): (r: nat)
    ensures r < 100 || r == fallback
  {
    match FirstDurationAt(message)
    case None => fallback
    case Some(i) => DurationAt(message, i).value
  }

  /** `min` starts with a letter that is neither whitespace nor a digit. */
  lemma MinStartsWithLetter(s: string, j: nat)
    requires OccursAt(s, "min", j)
    ensures j < |s| && !IsSpace(s[j]) && !IsDigit(s[j])
  {
    assert LowerChar(s[j + 0]) == LowerChar("min"[0]);
  }

  /** The `minute` alternative only matches where `min` does, so it never changes
      whether or where the duration pattern matches. */
  lemma MinuteImpliesMin(s: string, j: nat)
    requires OccursAt(s, "minute", j)
    ensures OccursAt(s, "min", j)
  {
    forall k | 0 <= k < 3 ensures LowerChar(s[j + k]) == LowerChar("min"[k]) {
      assert "min"[k] == "minute"[k];
    }
  }

  /** Any way the duration pattern matches after `k` digits at `i` uses exactly the
      greedy whitespace run, so the scanner's reading agrees with the pattern's. */
  lemma DurationMatchIsGreedy(s: string, i: nat, k: nat, w: nat)
    requires DurationMatch(s, i, k, w)
    ensures MinAfterSpaces(s, i + k) && w == RunFrom(s, i + k, IsSpace)
  {
    var j := i + k + w;
    if OccursAt(s, "minute", j) {
      MinuteImpliesMin(s, j);
    }
    MinStartsWithLetter(s, j);
    RunIsForced(s, i + k, w, IsSpace);
  }

  /** Wherever the duration pattern can match, the scanner captures. */
  lemma DurationMatchIsCaptured(s: string, i: nat, k: nat, w: nat)
    requires DurationMatch(s, i, k, w)
    ensures DurationAt(s, i).Some?
  {
    DurationMatchIsGreedy(s, i, k, w);
    assert IsDigit(s[i]);
    assert k == 2 ==> IsDigit(s[i + 1]);
  }

  /** The per-position duration scanner captures exactly when the pattern matches
      at `i`. */
  lemma DurationAtIffMatch(s: string, i: nat)
    ensures DurationAt(s, i).Some? <==> DurationMatchesAt(s, i)
  {
    assert DurationMatchesAt(s, i) ==> DurationAt(s, i).Some? by {
      forall k, w | DurationMatch(s, i, k, w) ensures DurationAt(s, i).Some? {
        DurationMatchIsCaptured(s, i, k, w);
      }
    }
    assert DurationAt(s, i).Some? ==> DurationMatchesAt(s, i) by {
      if i + 2 <= |s| && IsDigit(s[i]) && IsDigit(s[i + 1]) && MinAfterSpaces(s, i + 2) {
        var w := RunFrom(s, i + 2, IsSpace);
        assert DurationMatch(s, i, 2, w);
      } else if i + 1 <= |s| && IsDigit(s[i]) && MinAfterSpaces(s, i + 1) {
        var w := RunFrom(s, i + 1, IsSpace);
        assert DurationMatch(s, i, 1, w);
      }
    }
  }

  /** Whatever way the duration pattern matches at `i`, the scanner captures there a
      number spelled by at least as many digits, in a way the pattern can match. */
  lemma DurationCaptureExtendsMatch(s: string, i: nat, k: nat, w: nat)
    requires DurationMatch(s, i, k, w)
    ensures DurationAt(s, i).Some?
    ensures exists k': nat, w': nat ::
      (k <= k' && DurationMatch(s, i, k', w') && DurationAt(s, i).value == DigitsValue(s[i..i + k']))
  {
    DurationMatchIsGreedy(s, i, k, w);
    if i + 2 <= |s| && IsDigit(s[i]) && IsDigit(s[i + 1]) && MinAfterSpaces(s, i + 2) {
      var w2 := RunFrom(s, i + 2, IsSpace);
      assert DurationMatch(s, i, 2, w2);
    } else {
      assert k == 1;
      assert DurationMatch(s, i, 1, w);
    }
  }

  /** The scan for a duration stops at `i` exactly when `i` is the first position
      where the duration pattern matches. */
  lemma DurationScanFindsLeftmost(s: string)
    ensures FirstDurationAt(s).None? ==> forall i: nat :: !DurationMatchesAt(s, i)
    ensures FirstDurationAt(s).Some? ==> DurationMatchesAt(s, FirstDurationAt(s).value)
    ensures forall i: nat :: DurationMatchesAt(s, i) && (forall j: nat :: j < i ==> !DurationMatchesAt(s, j)) ==>
      FirstDurationAt(s) == Some(i)
  {
    var first := FirstDurationAt(s);
    if first.Some? {
      var f := first.value;
      assert DurationMatchesAt(s, f) by {
        DurationAtIffMatch(s, f);
      }
      forall i: nat | DurationMatchesAt(s, i) && (forall j: nat :: j < i ==> !DurationMatchesAt(s, j))
        ensures first == Some(i)
      {
        DurationAtIffMatch(s, i);
      }
    } else {
      forall i: nat ensures !DurationMatchesAt(s, i) {
        DurationAtIffMatch(s, i);
      }
    }
  }

  /** `pickNumber` returns the fallback when the duration pattern matches nowhere. */
  lemma PickNumberDefault(s: string, fallback: nat)
    requires forall i: nat :: !DurationMatchesAt(s, i)
    ensures PickNumber(s, fallback) == fallback
  {
    DurationScanFindsLeftmost(s);
  }

  /** At the leftmost position where the duration pattern matches, `pickNumber` uses
      the scanner's capture. */
  lemma PickNumberUsesLeftmostCapture(s: string, fallback: nat, i: nat)
    requires DurationMatchesAt(s, i)
    requires forall j: nat :: j < i ==> !DurationMatchesAt(s, j)
    ensures DurationAt(s, i).Some? && PickNumber(s, fallback) == DurationAt(s, i).value
  {
    DurationScanFindsLeftmost(s);
  }

  /** When the duration pattern matches at `i` with `k` digits and nowhere before
      `i`, `pickNumber` returns the number spelled by the digits at `i`, taking at
      least `k` of them: two whenever the pattern allows it. With `123 min` the
      leftmost match is at the `2`, so the result is 23. */
  lemma PickNumberLeftmost(s: string, fallback: nat, i: nat, k: nat, w: nat)
    requires DurationMatch(s, i, k, w)
    requires forall j: nat :: j < i ==> !DurationMatchesAt(s, j)
    ensures exists k': nat, w': nat ::
      (k <= k' && DurationMatch(s, i, k', w') && PickNumber(s, fallback) == DigitsValue(s[i..i + k']))
  {
    DurationCaptureExtendsMatch(s, i, k, w);
    assert PickNumber(s, fallback) == DurationAt(s, i).value by {
      assert DurationMatchesAt(s, i);
      PickNumberUsesLeftmostCapture(s, fallback, i);
    }
  }

  /** No duration match starts at the first of three digits in a row: `\d{1,2}`
      leaves a digit where whitespace or `min` would have to follow. */
  lemma NoDurationBeforeThirdDigit(s: string, i: nat)
    requires i + 2 < |s| && IsDigit(s[i]) && IsDigit(s[i + 1]) && IsDigit(s[i + 2])
    ensures DurationAt(s, i).None?
  {
    assert RunFrom(s, i + 2, IsSpace) == 0 && RunFrom(s, i + 1, IsSpace) == 0;
    assert LowerChar(s[i + 2]) != LowerChar("min"[0]);
    assert LowerChar(s[i + 1]) != LowerChar("min"[0]);
  }

  /** The digits `23` followed by a space and `min` read as 23 where they start. */
  lemma TwentyThreeMinutesAt(s: string, i: nat)
    requires i + 6 <= |s| && s[i..i + 6] == "23 min"
    ensures DurationAt(s, i) == Some(23)
  {
    assert s[i] == '2' && s[i + 1] == '3' && s[i + 2] == ' ' && s[i + 3] == 'm';
    assert s[i + 4] == 'i' && s[i + 5] == 'n';
    assert RunFrom(s, i + 2, IsSpace) == 1 by {
      assert IsSpace(s[i + 2]) && !IsSpace(s[i + 3]);
    }
    assert OccursAt(s, "min", i + 3);
    assert s[i..i + 2][0] == '2' && s[i..i + 2][1] == '3';
    TwoDigitsValue(s[i..i + 2]);
  }

  /** When the scanner captures nothing at the first position but captures at the
      second, `pickNumber` returns the second position's capture. */
  lemma PickNumberFromSecond(s: string, fallback: nat)
    requires |s| > 1 && DurationAt(s, 0).None? && DurationAt(s, 1).Some?
    ensures PickNumber(s, fallback) == DurationAt(s, 1).value
  {
    assert FirstDurationAt(s) == Some(1);
  }

  /** A three-digit number before `min` reads as its last two digits: no match
      starts at the first digit, and the one at the second reads 23. */
  lemma ThreeDigitMinutes()
    ensures PickNumber("123 min", DefaultDuration) == 23
  {
    var s := "123 min";
    assert DurationAt(s, 0).None? by {
      assert IsDigit(s[0]) && IsDigit(s[1]) && IsDigit(s[2]);
      NoDurationBeforeThirdDigit(s, 0);
    }
    assert DurationAt(s, 1) == Some(23) by {
      assert s[1..7] == "23 min";
      TwentyThreeMinutesAt(s, 1);
    }
    PickNumberFromSecond(s, DefaultDuration);
  }

  /* ---------- learner level: grade\s*(\d+), case-insensitive ---------- */

  /** What `grade\s*(\d+)` captures when the engine starts at `i`. */
  function GradeAt(s: string, i: nat): (r: Option<string>)
    ensures r.Some? ==> 1 <= |r.value| && All(r.value, 0, |r.value|, IsDigit)
  {
    if !OccursAt(s, "grade", i) then None
    else
      var j := i + 5 + RunFrom(s, i + 5, IsSpace);
      var d := RunFrom(s, j, IsDigit);
      if d == 0 then None else Some(s[j..j + d])
  }

  /** The grade pattern can match at `i` with `w` whitespace characters and `d`
      digits, with no preference among the ways it can. */
  ghost predicate GradeMatch(s: string, i: nat, w: nat, d: nat) {
    && OccursAt(s, "grade", i)
    && 1 <= d
    && i + 5 + w + d <= |s|
    && All(s, i + 5, i + 5 + w, IsSpace)
    && All(s, i + 5 + w, i + 5 + w + d, IsDigit)
  }

  ghost predicate GradeMatchesAt(s: string, i: nat) {
    exists w, d :: GradeMatch(s, i, w, d)
  }

  /** The leftmost position at which the grade scanner captures. */
  function FirstGradeAt(s: string): (r: Option<nat>)
    ensures r.Some? ==> r.value < |s| && GradeAt(s, r.value).Some?
    ensures r.Some? ==> forall j: nat :: j < r.value ==> GradeAt(s, j).None?
    ensures r.None? ==> forall j: nat :: j < |s| ==> GradeAt(s, j).None?
  {
    var p := (i: nat) => GradeAt(s, i).Some?;
    assert forall j: nat :: p(j) == GradeAt(s, j).Some?;
    Leftmost(p, 0, |s|)
  }

  /** `pickGrade(message)`: `grade ` and the digits captured at the leftmost match,
      or the default learner level. */
  function PickGrade(message: string): (r: string)
    ensures r == DefaultLearnerLevel || (|r| > 6 && r[..6] == "grade " && All(r, 6, |r|, IsDigit))
  {
    match FirstGradeAt(message)
    case None => DefaultLearnerLevel
    case Some(i) =>
      var g := GradeAt(message, i).value;
      assert ("grade " + g)[6..] == g;
      "grade " + g
  }

  /** Any way the grade pattern matches at `i` uses exactly the greedy whitespace run
      and at most the greedy digit run. */
  lemma GradeMatchIsGreedy(s: string, i: nat, w: nat, d: nat)
    requires GradeMatch(s, i, w, d)
    ensures w == RunFrom(s, i + 5, IsSpace) && d <= RunFrom(s, i + 5 + w, IsDigit)
  {
    assert IsDigit(s[i + 5 + w]);
    RunIsForced(s, i + 5, w, IsSpace);
    RunIsLongest(s, i + 5 + w, d, IsDigit);
  }

  /** The per-position grade scanner captures exactly when the pattern matches at `i`. */
  lemma GradeAtIffMatch(s: string, i: nat)
    ensures GradeAt(s, i).Some? <==> GradeMatchesAt(s, i)
    ensures GradeAt(s, i).Some? ==> i < |s|
  {
    forall w: nat, d: nat | GradeMatch(s, i, w, d)
      ensures w == RunFrom(s, i + 5, IsSpace) && d <= RunFrom(s, i + 5 + w, IsDigit)
    {
      GradeMatchIsGreedy(s, i, w, d);
    }
    if OccursAt(s, "grade", i) {
      var w := RunFrom(s, i + 5, IsSpace);
      var d := RunFrom(s, i + 5 + w, IsDigit);
      if d > 0 {
        assert GradeMatch(s, i, w, d);
      }
    }
  }

  /** Where the grade scanner captures, it captures the longest digit string the
      pattern admits at `i`. */
  lemma GradeAtIsLongest(s: string, i: nat)
    requires GradeAt(s, i).Some?
    ensures
      var g := GradeAt(s, i).value;
      var w := RunFrom(s, i + 5, IsSpace);
      && GradeMatch(s, i, w, |g|) && g == s[i + 5 + w..i + 5 + w + |g|]
      && forall w2: nat, d2: nat :: GradeMatch(s, i, w2, d2) ==> d2 <= |g|
  {
    var w := RunFrom(s, i + 5, IsSpace);
    var d := RunFrom(s, i + 5 + w, IsDigit);
    assert GradeAt(s, i) == Some(s[i + 5 + w..i + 5 + w + d]);
    assert GradeMatch(s, i, w, d);
    forall w2: nat, d2: nat | GradeMatch(s, i, w2, d2) ensures d2 <= d {
      GradeMatchIsGreedy(s, i, w2, d2);
    }
  }

  /** The leftmost-position fact both `pickGrade` lemmas rest on: the scan stops at
      `i` exactly when `i` is the first position where the grade pattern matches. */
  lemma GradeScanFindsLeftmost(s: string)
    ensures FirstGradeAt(s).None? ==> forall i: nat :: !GradeMatchesAt(s, i)
    ensures FirstGradeAt(s).Some? ==> GradeMatchesAt(s, FirstGradeAt(s).value)
    ensures forall i: nat :: GradeMatchesAt(s, i) && (forall j: nat :: j < i ==> !GradeMatchesAt(s, j)) ==>
      FirstGradeAt(s) == Some(i)
  {
    var first := FirstGradeAt(s);
    if first.Some? {
      var f := first.value;
      assert GradeMatchesAt(s, f) by {
        GradeAtIffMatch(s, f);
      }
      forall i: nat | GradeMatchesAt(s, i) && (forall j: nat :: j < i ==> !GradeMatchesAt(s, j))
        ensures first == Some(i)
      {
        GradeAtIffMatch(s, i);
      }
    } else {
      forall i: nat ensures !GradeMatchesAt(s, i) {
        GradeAtIffMatch(s, i);
      }
    }
  }

  /** `pickGrade` falls back to the default learner level when the grade pattern
      matches nowhere. */
  lemma PickGradeDefault(s: string)
    requires forall i: nat :: !GradeMatchesAt(s, i)
    ensures PickGrade(s) == DefaultLearnerLevel
  {
    GradeScanFindsLeftmost(s);
  }

  /** At the leftmost position where the grade pattern matches, `pickGrade` uses the
      scanner's capture. */
  lemma PickGradeUsesLeftmostCapture(s: string, i: nat)
    requires GradeMatchesAt(s, i)
    requires forall j: nat :: j < i ==> !GradeMatchesAt(s, j)
    ensures GradeAt(s, i).Some? && PickGrade(s) == "grade " + GradeAt(s, i).value
  {
    GradeScanFindsLeftmost(s);
  }

  /** Whatever way the grade pattern matches at `i`, the scanner captures there,
      after the same whitespace, at least as many digits. */
  lemma GradeCaptureExtendsMatch(s: string, i: nat, w: nat, d: nat)
    requires GradeMatch(s, i, w, d)
    ensures GradeAt(s, i).Some?
    ensures
      var g := GradeAt(s, i).value;
      d <= |g| && GradeMatch(s, i, w, |g|) && g == s[i + 5 + w..i + 5 + w + |g|]
  {
    GradeMatchIsGreedy(s, i, w, d);
    GradeAtIffMatch(s, i);
    GradeAtIsLongest(s, i);
  }

  /** When `i` is the leftmost position where the grade pattern matches, `pickGrade`
      names the whole digit string that follows `grade` and its whitespace there,
      leading zeros included: no way of matching at `i` takes more digits. */
  lemma PickGradeLeftmost(s: string, i: nat, w: nat, d: nat)
    requires GradeMatch(s, i, w, d)
    requires forall j: nat :: j < i ==> !GradeMatchesAt(s, j)
    ensures exists d': nat :: d <= d' && GradeMatch(s, i, w, d') && PickGrade(s) == "grade " + s[i + 5 + w..i + 5 + w + d']
  {
    GradeCaptureExtendsMatch(s, i, w, d);
    var g := GradeAt(s, i).value;
    assert PickGrade(s) == "grade " + g by {
      assert GradeMatchesAt(s, i);
      PickGradeUsesLeftmostCapture(s, i);
    }
    assert d <= |g| && GradeMatch(s, i, w, |g|) && PickGrade(s) == "grade " + s[i + 5 + w..i + 5 + w + |g|];
  }

  /* ---------- the clarification phase ---------- */

  /** The compact memory line: topic, duration, depth and learner level joined by
      ` | `. */
  function CompactSummary(c: Constraints): (r: string)
    ensures |r| > |c.topic| + 3 && r[..|c.topic| + 3] == c.topic + " | "
  {
    var head := c.topic + " | ";
    var r := head + (NatToString(c.durationMinutes) + SummaryTail(c));
    assert r[..|head|] == head;
    r
  }

  /** What follows the duration's digits in the compact summary. */
  function SummaryTail(c: Constraints): (t: string)
    ensures |t| > 0 && t[0] == 'm'
  {
    "min | " + c.depth.Name() + " depth | " + c.learnerLevel
  }

  /** `runClarificationFlow(message)` without its model call and progress events:
      each constraint is read from the whole message by its own rule. */
  function RunClarification(message: string): (r: Intake)
    ensures r.constraints.topic == message
    ensures r.constraints.durationMinutes < 100
    ensures r.constraints.depth == Deep <==> Mentions(message, DeepWords)
    ensures r.constraints.depth == Light <==> Mentions(message, LightWords) && !Mentions(message, DeepWords)
    ensures r.constraints.density == Dense <==> Mentions(message, DenseWords)
    ensures r.constraints.learnerLevel == DefaultLearnerLevel ||
      (|r.constraints.learnerLevel| > 6 && r.constraints.learnerLevel[..6] == "grade ")
    ensures |r.followUps| == 3
    ensures r.compactSummary == CompactSummary(r.constraints)
    ensures |r.compactSummary| > |message| + 3 && r.compactSummary[..|message| + 3] == message + " | "
  {
    var c := Constraints(
      message,
      PickNumber(message, DefaultDuration),
      PickDepth(message),
      PickDensity(message),
      PickGrade(message));
    Intake(c, FollowUps, CompactSummary(c))
  }

  /** With no `min` anywhere in the message the duration is the default ten minutes,
      and with no `grade` anywhere the learner level is the default. */
  lemma ClarificationDefaults(message: string)
    ensures (forall i: nat :: !OccursAt(message, "min", i)) ==>
      RunClarification(message).constraints.durationMinutes == DefaultDuration
    ensures (forall i: nat :: !OccursAt(message, "grade", i)) ==>
      RunClarification(message).constraints.learnerLevel == DefaultLearnerLevel
  {
    if FirstDurationAt(message).Some? {
      var f := FirstDurationAt(message).value;
      if f + 2 <= |message| && IsDigit(message[f]) && IsDigit(message[f + 1]) && MinAfterSpaces(message, f + 2) {
        assert OccursAt(message, "min", f + 2 + RunFrom(message, f + 2, IsSpace));
      } else {
        assert OccursAt(message, "min", f + 1 + RunFrom(message, f + 1, IsSpace));
      }
    }
    if FirstGradeAt(message).Some? {
      assert OccursAt(message, "grade", FirstGradeAt(message).value);
    }
  }

  /** The compact summary closes with the duration's unit, the depth's name and the
      learner level, in that order. */
  lemma SummaryEndsWithDepthAndLevel(c: Constraints)
    ensures
      var s := CompactSummary(c);
      var t := "min | " + c.depth.Name() + " depth | " + c.learnerLevel;
      && |t| < |s|
      && s[|s| - |t|..] == t
  {
    var n := NatToString(c.durationMinutes);
    assert CompactSummary(c) == (c.topic + " | " + n) + SummaryTail(c);
  }

  /** The duration can be read back from the compact summary: the digits right after
      the topic and its separator spell the duration. */
  lemma SummaryRecoversDuration(c: Constraints)
    ensures
      var s := CompactSummary(c);
      var j := |c.topic| + 3;
      && j <= |s|
      && s[..j] == c.topic + " | "
      && DigitsValue(s[j..j + RunFrom(s, j, IsDigit)]) == c.durationMinutes
  {
    var s := CompactSummary(c);
    var j := |c.topic| + 3;
    var n := NatToString(c.durationMinutes);
    assert s[j..] == n + SummaryTail(c);
    assert s[j..j + |n|] == n;
    assert s[j + |n|] == 'm';
    RunIsForced(s, j, |n|, IsDigit);
    DigitsValueOfNatToString(c.durationMinutes);
  }
}

=== FILE: gateway.dfy ===
/** The payloads of the simulated model and asset calls (`ModelGateway.callModel`,
    `AssetTooling.generateImage`, `AssetTooling.generateChartSpec`). The calls only
    wait a fixed time and then return these values, so here they are plain constants
    of their inputs; the waiting and the truncated input digest are not modelled. */
module Gateway {

  /** The image reference the asset stub returns for a prompt; `kind` is its
      `type` tag. */
  datatype ImageAsset = ImageAsset(kind: string, prompt: string, url: string)

  /** The nested `spec` of a chart: what the renderer reads the title from. */
  datatype ChartData = ChartData(title: string, labels: seq<string>, values: seq<int>)

  /** The chart specification the asset stub returns for a topic; `kind` is its
      `type` tag. */
  datatype ChartSpec = ChartSpec(kind: string, library: string, spec: ChartData)

  const OutputPrefix: string := "Simulated model output for "
  const ChartTitlePrefix: string := "Concept curve for "
  const PlaceholderUrl: string := "https://placehold.co/1200x600/111827/9ca3af?text=Generated+Visual"

  /** The `output` text of a simulated model call made for `purpose`. */
  function ModelOutput(purpose: string): (r: string)
    ensures |r| == |OutputPrefix| + |purpose|
    ensures r[..|OutputPrefix|] == OutputPrefix && r[|OutputPrefix|..] == purpose
  {
    OutputPrefix + purpose
  }

  /** The image asset: typed `image`, for the prompt given, at the placeholder. */
  function GenerateImage(prompt: string): (a: ImageAsset)
    ensures a.kind == "image" && a.prompt == prompt && a.url == PlaceholderUrl
  {
    ImageAsset("image", prompt, PlaceholderUrl)
  }

  /** The chart: typed `chart`, drawn with `chart.js`, titled after the topic, with
      four labels and four rising values. */
  function GenerateChartSpec(topic: string): (c: ChartSpec)
    ensures c.kind == "chart" && c.library == "chart.js"
    ensures |c.spec.title| == |ChartTitlePrefix| + |topic| && c.spec.title[|ChartTitlePrefix|..] == topic
    ensures |c.spec.labels| == |c.spec.values| == 4
    ensures forall k :: 0 < k < |c.spec.values| ==> c.spec.values[k - 1] < c.spec.values[k]
  {
    ChartSpec("chart", "chart.js",
      ChartData(ChartTitlePrefix + topic, ["Start", "Develop", "Practice", "Master"], [20, 48, 70, 88]))
  }
}

=== FILE: orchestrator.dfy ===
/** `AgentOrchestrator.processTeacherMessage` as a state machine over the
    conversation memory: one teacher message turns a memory into a new memory, a
    response and the progress events the phases report, in order. */
module Orchestrator {
  import opened Wrappers
  import opened Text
  import opened Extraction
  import opened Outline
  import opened Sections
  import opened ScopedEdit

  /** The conversation memory. Constraints are absent until a first fresh build. */
  datatype Memory = Memory(conversationSummary: string, constraints: Option<Constraints>, sections: seq<Section>)

  /** The two kinds of turn: `fresh_build` and `scoped_edit`. */
  datatype Mode = Fresh | Edit

  datatype Status = Running | Done

  /** A progress event as the sink receives it, without its timestamp. */
  datatype Event = Event(agent: string, status: Status, message: string)

  datatype Response = Response(mode: Mode, teacherResponse: string, presentation: seq<Section>, meta: Meta)

  datatype StepResult = StepResult(memory: Memory, response: Response, events: seq<Event>)

  /** The memory a new orchestrator starts with. */
  function InitialMemory(): (m: Memory)
    ensures m.conversationSummary == "" && m.constraints.None? && |m.sections| == 0
  {
    Memory("", None, [])
  }

  /* ---------- progress events, phase by phase ---------- */

  const MasterAgent: string := "Master Agent"
  const NarrativeAgent: string := "Narrative Agent"
  const SwarmAgent: string := "Sub-Agent Swarm"
  const VisualAgent: string := "Visual Agent"
  const InteractionAgent: string := "Interaction Agent"
  const VerifierAgents: string := "Verifier Agent Cluster"
  const PatchAgent: string := "Patch Agent"

  const ClarifyingText: string := "Interpreting teacher intent and preparing adaptive follow-up questions."
  const CapturedPrefix: string := "Captured intent with compact memory: "
  const OutliningText: string := "Building continuous storyline outline and dispatch graph for sub-agents."
  const GeneratingText: string := "Generating narrative, visuals, interactions, and data blocks in parallel."
  const VisualText: string := "Applied coherent visual system, spacing, and transitions."
  const InteractionText: string := "Embedded reflective prompts and active participation moments."
  const VerifyingText: string := "Running pedagogy, consistency, accessibility, and timing checks in parallel."
  const EditDetectedText: string := "Detected edit request; mapping to minimal impacted section IDs."
  const RecheckText: string := "Fast re-check completed for patched section only."

  function ClarificationEvents(summary: string): (e: seq<Event>)
    ensures |e| == 2
    ensures e[0].agent == MasterAgent && e[0].status == Running
    ensures e[1].agent == MasterAgent && e[1].status == Done
    ensures |e[1].message| == |CapturedPrefix| + |summary| && e[1].message[|CapturedPrefix|..] == summary
  {
    [ Event(MasterAgent, Running, ClarifyingText),
      Event(MasterAgent, Done, CapturedPrefix + summary) ]
  }

  /** The narrative event's text for an outline of `count` sections. */
  function ArcText(count: nat): string {
    "Created " + NatToString(count) + "-section story arc."
  }

  function OutlineEvents(count: nat): (e: seq<Event>)
    ensures |e| == 2
    ensures e[0].agent == MasterAgent && e[0].status == Running
    ensures e[1].agent == NarrativeAgent && e[1].status == Done
  {
    [ Event(MasterAgent, Running, OutliningText),
      Event(NarrativeAgent, Done, ArcText(count)) ]
  }

  function GenerationEvents(): (e: seq<Event>)
    ensures |e| == 3
    ensures e[0].agent == SwarmAgent && e[0].status == Running
    ensures e[1].agent == VisualAgent && e[1].status == Done
    ensures e[2].agent == InteractionAgent && e[2].status == Done
  {
    [ Event(SwarmAgent, Running, GeneratingText),
      Event(VisualAgent, Done, VisualText),
      Event(InteractionAgent, Done, InteractionText) ]
  }

  /** The verifier's closing text for `validators` checks. */
  function ChecksText(validators: nat): string {
    "All checks completed (" + NatToString(validators) + " validators)."
  }

  function VerificationEvents(validators: nat): (e: seq<Event>)
    ensures |e| == 2
    ensures e[0].agent == VerifierAgents && e[0].status == Running
    ensures e[1].agent == VerifierAgents && e[1].status == Done
  {
    [ Event(VerifierAgents, Running, VerifyingText),
      Event(VerifierAgents, Done, ChecksText(validators)) ]
  }

  const ReplyOpen: string := "Applied your change to "
  const ReplyClose: string := ". Only that section was regenerated for token efficiency."
  const PatchedOpen: string := "Updated only "
  const PatchedClose: string := "; avoided full regeneration."

  const PatchMode: string := "scoped_patch"
  const PatchStrategy: string := "localized regeneration"

  /** The meta of a scoped edit that changed the section with id `targetId`. */
  function EditMeta(targetId: string): Meta {
    PatchMeta(PatchMode, targetId, PatchStrategy)
  }

  /** The reply to the teacher after an edit of the section titled `title`. */
  function EditReply(title: string): (r: string)
    ensures |r| == |ReplyOpen| + |title| + |ReplyClose|
    ensures r[..|ReplyOpen|] == ReplyOpen && r[|ReplyOpen|..|ReplyOpen| + |title|] == title
  {
    var r := ReplyOpen + title + ReplyClose;
    assert r[|ReplyOpen|..|ReplyOpen| + |title|] == title;
    r
  }

  /** The three events of an edit: the master agent starts, the patch agent names
      the one section it updated, and the verifiers finish the re-check. */
  function EditEvents(targetId: string): (e: seq<Event>)
    ensures |e| == 3
    ensures e[0].agent == MasterAgent && e[0].status == Running
    ensures e[1].agent == PatchAgent && e[1].status == Done
    ensures e[2].agent == VerifierAgents && e[2].status == Done
    ensures |e[1].message| == |PatchedOpen| + |targetId| + |PatchedClose|
    ensures e[1].message[..|PatchedOpen|] == PatchedOpen
    ensures e[1].message[|PatchedOpen|..|PatchedOpen| + |targetId|] == targetId
  {
    var patched := PatchedOpen + targetId + PatchedClose;
    assert patched[|PatchedOpen|..|PatchedOpen| + |targetId|] == targetId;
    [ Event(MasterAgent, Running, EditDetectedText),
      Event(PatchAgent, Done, patched),
      Event(VerifierAgents, Done, RecheckText) ]
  }

  /* ---------- the two branches ---------- */

  /** Outline, generation and verification for settled constraints: one verified
      section per outline block, in outline order. */
  function BuildPresentation(c: Constraints): (v: Verification)
    ensures |v.patchedSections| == SectionCount(c.durationMinutes)
    ensures forall i :: 0 <= i < |v.patchedSections| ==>
      v.patchedSections[i].block == BuildOutline(c)[i] && v.patchedSections[i].verificationNote == Some(PassedNote)
    ensures v.meta.BuildMeta? && v.meta.validatorCount == 3
  {
    GenerationKeepsOutline(BuildOutline(c));
    VerifyPresentation(GenerateSections(BuildOutline(c)), c)
  }

  /** The events of a fresh build, phase after phase. */
  function FreshBuildEvents(summary: string, sectionCount: nat, validators: nat): (e: seq<Event>)
    ensures |e| == 9
    ensures e[0].agent == MasterAgent && e[1].agent == MasterAgent && e[2].agent == MasterAgent
    ensures e[3].agent == NarrativeAgent && e[4].agent == SwarmAgent && e[5].agent == VisualAgent
    ensures e[6].agent == InteractionAgent && e[7].agent == VerifierAgents && e[8].agent == VerifierAgents
  {
    ClarificationEvents(summary) + OutlineEvents(sectionCount) + GenerationEvents() + VerificationEvents(validators)
  }

  /** A fresh build from the clarified intake: outline, generation and verification
      in sequence; memory takes the verified sections, the summary and the
      constraints. */
  function FreshBuild(intake: Intake): (r: StepResult)
    ensures r.response.mode == Fresh
    ensures r.response.presentation == r.memory.sections
    ensures r.memory.constraints == Some(intake.constraints)
    ensures r.memory.conversationSummary == intake.compactSummary
    ensures |r.memory.sections| == SectionCount(intake.constraints.durationMinutes)
    ensures r.response.meta.BuildMeta? && r.response.meta.validatorCount == 3
    ensures |r.events| == 9
  {
    var verification := BuildPresentation(intake.constraints);
    StepResult(
      Memory(intake.compactSummary, Some(intake.constraints), verification.patchedSections),
      Response(Fresh, verification.teacherMessage, verification.patchedSections, verification.meta),
      FreshBuildEvents(intake.compactSummary, |verification.patchedSections|, verification.meta.validatorCount))
  }

  /** A scoped edit of the sections in memory; the rest of memory is kept. */
  function ScopedEditStep(m: Memory, message: string): (r: StepResult)
    requires |m.sections| > 0
    ensures r.response.mode == Edit
    ensures r.response.presentation == r.memory.sections
    ensures r.memory.conversationSummary == m.conversationSummary
    ensures r.memory.constraints == m.constraints
    ensures SectionIds(r.memory.sections) == SectionIds(m.sections)
    ensures r.memory.sections == ApplyScopedEdit(m.sections, message)
    ensures r.response.teacherResponse == EditReply(m.sections[TargetIndex(m.sections)].block.title)
    ensures r.response.meta == EditMeta(m.sections[TargetIndex(m.sections)].Id())
    ensures r.events == EditEvents(m.sections[TargetIndex(m.sections)].Id())
    ensures |r.events| == 3
  {
    var target := m.sections[TargetIndex(m.sections)];
    var revised := ApplyScopedEdit(m.sections, message);
    StepResult(
      m.(sections := revised),
      Response(
        Edit,
        EditReply(target.block.title),
        revised,
        EditMeta(target.Id())),
      EditEvents(target.Id()))
  }

  /** The routing rule of `processTeacherMessage`: an edit request goes to the
      scoped edit only when there are sections to edit. */
  predicate RoutesToEdit(m: Memory, message: string)
    ensures RoutesToEdit(m, message) <==> Mentions(message, EditWords) && |m.sections| > 0
  {
    IsEditRequest(message) && |m.sections| > 0
  }

  /** `processTeacherMessage(message)`: a scoped edit when the message routes to
      one, a fresh build otherwise. */
  function ProcessTeacherMessage(m: Memory, message: string): (r: StepResult)
    ensures r.response.mode == Edit <==> RoutesToEdit(m, message)
    ensures r.response.presentation == r.memory.sections
  {
    if RoutesToEdit(m, message) then ScopedEditStep(m, message)
    else FreshBuild(RunClarification(message))
  }

  /** An edit turn keeps the summary, the constraints and the id list, and reports
      the target's id. */
  lemma EditTurnKeepsMemory(m: Memory, message: string)
    requires RoutesToEdit(m, message)
    ensures
      var r := ProcessTeacherMessage(m, message);
      && r.memory.conversationSummary == m.conversationSummary
      && r.memory.constraints == m.constraints
      && SectionIds(r.memory.sections) == SectionIds(m.sections)
      && r.memory.sections == ApplyScopedEdit(m.sections, message)
      && r.response.meta == EditMeta(m.sections[TargetIndex(m.sections)].Id())
      && |r.events| == 3
  {
    assert ProcessTeacherMessage(m, message) == ScopedEditStep(m, message);
  }

  /** A fresh turn replaces memory with the clarified constraints, their summary
      and one verified section per outline block, and reports nine events. */
  lemma FreshTurnSetsMemory(m: Memory, message: string)
    requires !RoutesToEdit(m, message)
    ensures
      var r := ProcessTeacherMessage(m, message);
      var intake := RunClarification(message);
      && r.memory.constraints == Some(intake.constraints)
      && r.memory.conversationSummary == intake.compactSummary
      && |r.memory.sections| == SectionCount(intake.constraints.durationMinutes)
      && r.response.meta.BuildMeta? && r.response.meta.validatorCount == 3
      && |r.events| == 9
  {
    assert ProcessTeacherMessage(m, message) == FreshBuild(RunClarification(message));
  }

  /** A fresh turn stores what the four extraction rules read from the message:
      `deep` words win over `light` ones, `dense` or `detailed` make the content
      dense, and the defaults apply where the duration or grade pattern matches
      nowhere. The stored summary is the compact line of the stored constraints. */
  lemma FreshTurnReadsMessage(m: Memory, message: string)
    requires !RoutesToEdit(m, message)
    ensures
      var mem := ProcessTeacherMessage(m, message).memory;
      && mem.constraints.Some?
      && mem.constraints.value.topic == message
      && (mem.constraints.value.depth == Deep <==> Mentions(message, DeepWords))
      && (mem.constraints.value.depth == Light <==> Mentions(message, LightWords) && !Mentions(message, DeepWords))
      && (mem.constraints.value.density == Dense <==> Mentions(message, DenseWords))
      && ((forall j: nat :: !DurationMatchesAt(message, j)) ==> mem.constraints.value.durationMinutes == DefaultDuration)
      && ((forall j: nat :: !GradeMatchesAt(message, j)) ==> mem.constraints.value.learnerLevel == DefaultLearnerLevel)
      && mem.conversationSummary == CompactSummary(mem.constraints.value)
  {
    FreshTurnSetsMemory(m, message);
    if forall j: nat :: !DurationMatchesAt(message, j) {
      PickNumberDefault(message, DefaultDuration);
    }
    if forall j: nat :: !GradeMatchesAt(message, j) {
      PickGradeDefault(message);
    }
  }

  /** When the duration pattern first matches at `i`, a fresh turn stores the
      number spelled by the digits there, taking at least as many as that match. */
  lemma FreshTurnReadsDuration(m: Memory, message: string, i: nat, k: nat, w: nat)
    requires !RoutesToEdit(m, message)
    requires DurationMatch(message, i, k, w)
    requires forall j: nat :: j < i ==> !DurationMatchesAt(message, j)
    ensures
      var mem := ProcessTeacherMessage(m, message).memory;
      && mem.constraints.Some?
      && exists k': nat, w': nat ::
        (k <= k' && DurationMatch(message, i, k', w') &&
         mem.constraints.value.durationMinutes == DigitsValue(message[i..i + k']))
  {
    FreshTurnSetsMemory(m, message);
    PickNumberLeftmost(message, DefaultDuration, i, k, w);
  }

  /** When the grade pattern first matches at `i`, a fresh turn stores `grade `
      followed by the digits there, taking at least as many as that match. */
  lemma FreshTurnReadsGrade(m: Memory, message: string, i: nat, w: nat, d: nat)
    requires !RoutesToEdit(m, message)
    requires GradeMatch(message, i, w, d)
    requires forall j: nat :: j < i ==> !GradeMatchesAt(message, j)
    ensures
      var mem := ProcessTeacherMessage(m, message).memory;
      && mem.constraints.Some?
      && exists d': nat ::
        (d <= d' && GradeMatch(message, i, w, d') &&
         mem.constraints.value.learnerLevel == "grade " + message[i + 5 + w..i + 5 + w + d'])
  {
    FreshTurnSetsMemory(m, message);
    PickGradeLeftmost(message, i, w, d);
  }

  /** The events of a fresh build open each of the four phases with a running event
      and report the section and validator counts they are given. */
  lemma FreshBuildEventsOrder(summary: string, sectionCount: nat, validators: nat)
    ensures
      var e := FreshBuildEvents(summary, sectionCount, validators);
      && (forall k :: 0 <= k < |e| ==> (e[k].status == Running <==> k == 0 || k == 2 || k == 4 || k == 7))
      && e[3] == Event(NarrativeAgent, Done, ArcText(sectionCount))
      && e[8] == Event(VerifierAgents, Done, ChecksText(validators))
  {
    var e := FreshBuildEvents(summary, sectionCount, validators);
    assert e == ClarificationEvents(summary) + OutlineEvents(sectionCount) + GenerationEvents() + VerificationEvents(validators);
  }

  /** A fresh turn's narrative event names the number of sections memory now
      holds, and its last event the number of validators. */
  lemma FreshTurnEvents(m: Memory, message: string)
    requires !RoutesToEdit(m, message)
    ensures
      var r := ProcessTeacherMessage(m, message);
      && r.events[3].message == ArcText(|r.memory.sections|)
      && r.events[8].message == ChecksText(r.response.meta.validatorCount)
  {
    var r := ProcessTeacherMessage(m, message);
    var intake := RunClarification(message);
    var v := BuildPresentation(intake.constraints);
    assert r == FreshBuild(RunClarification(message));
    assert r.events == FreshBuildEvents(intake.compactSummary, |v.patchedSections|, 3);
    FreshBuildEventsOrder(intake.compactSummary, |v.patchedSections|, 3);
  }

  /** An edit-shaped message with no sections in memory starts a fresh build. */
  lemma EditWithoutSectionsBuilds(message: string)
    ensures ProcessTeacherMessage(InitialMemory(), message).response.mode == Fresh
  {
  }

  /** A fresh build's sections are the outline's blocks, in order, each verified:
      distinct ids, the opening and closing purposes at the two ends, and the fixed
      note on every section. */
  lemma FreshBuildSections(m: Memory, message: string)
    requires !RoutesToEdit(m, message)
    ensures
      var r := ProcessTeacherMessage(m, message);
      var outline := BuildOutline(RunClarification(message).constraints);
      && |r.memory.sections| == |outline|
      && (forall i :: 0 <= i < |outline| ==>
            r.memory.sections[i].block == outline[i]
            && r.memory.sections[i].verificationNote == Some(PassedNote))
      && Distinct(SectionIds(r.memory.sections))
      && r.memory.sections[0].block.purpose == OpeningPurpose
      && r.memory.sections[|outline| - 1].block.purpose == ClosingPurpose
  {
    var c := RunClarification(message).constraints;
    var outline := BuildOutline(c);
    var generated := GenerateSections(outline);
    var sections := ProcessTeacherMessage(m, message).memory.sections;
    assert sections == VerifyPresentation(generated, c).patchedSections by {
      assert ProcessTeacherMessage(m, message) == FreshBuild(RunClarification(message));
    }
    GenerationKeepsOutline(outline);
    VerifyKeepsIds(generated, c);
    OutlineIdsDistinct(c);
    assert SectionIds(sections) == Ids(outline);
  }

  /** The reflective prompt of the section a build makes at position `i` names its
      part as `sec N`: the id's one underscore becomes a space. */
  lemma BuiltInteractionNamesPart(c: Constraints, i: nat)
    requires i < SectionCount(c.durationMinutes)
    ensures BuildPresentation(c).patchedSections[i].interaction
      == "Ask learners: \"What changed from sec " + NatToString(i + 1) + " and why?\""
  {
    var outline := BuildOutline(c);
    var generated := GenerateSections(outline);
    assert BuildPresentation(c).patchedSections[i].interaction == generated[i].interaction by {
      assert BuildPresentation(c) == VerifyPresentation(generated, c);
    }
    OutlineIdAt(c, i);
    InteractionNamesPart(i + 1);
  }

  /** The reflective prompt of every section a fresh turn stores names its part as
      `sec N`. */
  lemma FreshInteractionNamesPart(m: Memory, message: string, i: nat)
    requires !RoutesToEdit(m, message)
    requires i < SectionCount(PickNumber(message, DefaultDuration))
    ensures i < |ProcessTeacherMessage(m, message).memory.sections|
    ensures ProcessTeacherMessage(m, message).memory.sections[i].interaction
      == "Ask learners: \"What changed from sec " + NatToString(i + 1) + " and why?\""
  {
    var c := RunClarification(message).constraints;
    assert ProcessTeacherMessage(m, message).memory.sections == BuildPresentation(c).patchedSections by {
      assert ProcessTeacherMessage(m, message) == FreshBuild(RunClarification(message));
    }
    BuiltInteractionNamesPart(c, i);
  }

  /* ---------- the memory invariant ---------- */

  /** What holds of memory between turns: ids are distinct, constraints are known
      exactly when there are sections, a built list has between four and nine
      sections, and every section carries a verifier's note. */
  ghost predicate WellFormed(m: Memory) {
    && Distinct(SectionIds(m.sections))
    && (|m.sections| == 0 <==> m.constraints.None?)
    && (|m.sections| > 0 ==> MinSections <= |m.sections| <= MaxSections)
    && forall i :: 0 <= i < |m.sections| ==> m.sections[i].verificationNote.Some?
  }

  lemma InitialMemoryWellFormed()
    ensures WellFormed(InitialMemory())
  {
  }

  /** An edit turn keeps memory well formed: the ids and their number are kept, and
      every patched section takes the re-verified note. */
  lemma EditTurnPreservesWellFormed(m: Memory, message: string)
    requires WellFormed(m)
    requires RoutesToEdit(m, message)
    ensures WellFormed(ProcessTeacherMessage(m, message).memory)
  {
    var r := ProcessTeacherMessage(m, message);
    var t := TargetIndex(m.sections);
    assert r.memory == m.(sections := ApplyScopedEdit(m.sections, message)) by {
      assert r == ScopedEditStep(m, message);
    }
    forall i | 0 <= i < |m.sections|
      ensures r.memory.sections[i].verificationNote.Some?
    {
      if m.sections[i].Id() == m.sections[t].Id() {
        assert r.memory.sections[i] == PatchSection(m.sections[i], message);
      }
    }
  }

  /** A fresh turn leaves memory well formed, whatever memory held before. */
  lemma FreshTurnWellFormed(m: Memory, message: string)
    requires !RoutesToEdit(m, message)
    ensures WellFormed(ProcessTeacherMessage(m, message).memory)
  {
    FreshBuildSections(m, message);
    FreshTurnSetsMemory(m, message);
  }

  /** Every turn keeps memory well formed. */
  lemma StepPreservesWellFormed(m: Memory, message: string)
    requires WellFormed(m)
    ensures WellFormed(ProcessTeacherMessage(m, message).memory)
  {
    if RoutesToEdit(m, message) {
      EditTurnPreservesWellFormed(m, message);
    } else {
      FreshTurnWellFormed(m, message);
    }
  }

  /** The outcome of a sequence of turns: the final memory and the mode of each turn. */
  datatype Trace = Trace(memory: Memory, modes: seq<Mode>)

  /** The turns `processTeacherMessage` takes for `messages`, one after another,
      each on the memory the previous one left. A turn is an edit only when its
      message mentions an edit word. */
  function Run(m: Memory, messages: seq<string>): (t: Trace)
    decreases |messages|
    ensures |t.modes| == |messages|
    ensures forall k :: 0 <= k < |messages| && t.modes[k] == Edit ==> Mentions(messages[k], EditWords)
  {
    if |messages| == 0 then Trace(m, [])
    else
      var step := ProcessTeacherMessage(m, messages[0]);
      var rest := Run(step.memory, messages[1..]);
      Trace(rest.memory, [step.response.mode] + rest.modes)
  }

  /** Memory stays well formed over any sequence of turns. */
  lemma {:induction false} RunPreservesWellFormed(m: Memory, messages: seq<string>)
    requires WellFormed(m)
    ensures WellFormed(Run(m, messages).memory)
    decreases |messages|
  {
    if |messages| > 0 {
      StepPreservesWellFormed(m, messages[0]);
      RunPreservesWellFormed(ProcessTeacherMessage(m, messages[0]).memory, messages[1..]);
    }
  }

  /** After one turn sections exist exactly when they existed before or the turn was
      a fresh build. */
  lemma StepSectionsExist(m: Memory, message: string)
    ensures
      var r := ProcessTeacherMessage(m, message);
      |r.memory.sections| > 0 <==> |m.sections| > 0 || r.response.mode == Fresh
  {
    var r := ProcessTeacherMessage(m, message);
    if RoutesToEdit(m, message) {
      EditTurnKeepsMemory(m, message);
      assert |SectionIds(r.memory.sections)| == |m.sections|;
    } else {
      FreshTurnSetsMemory(m, message);
    }
  }

  /** Sections exist after a sequence of turns exactly when they existed before or
      one of the turns was a fresh build: an edit never creates or removes one. */
  lemma {:induction false} SectionsExistIffBuilt(m: Memory, messages: seq<string>)
    ensures |Run(m, messages).memory.sections| > 0 <==> |m.sections| > 0 || Fresh in Run(m, messages).modes
    decreases |messages|
  {
    if |messages| > 0 {
      var step := ProcessTeacherMessage(m, messages[0]);
      StepSectionsExist(m, messages[0]);
      SectionsExistIffBuilt(step.memory, messages[1..]);
      assert Run(m, messages).modes == [step.response.mode] + Run(step.memory, messages[1..]).modes;
    }
  }

  /** From a new orchestrator, memory holds sections exactly when some fresh build
      has completed. */
  lemma SectionsIffSomeFreshBuild(messages: seq<string>)
    ensures |Run(InitialMemory(), messages).memory.sections| > 0 <==> Fresh in Run(InitialMemory(), messages).modes
  {
    SectionsExistIffBuilt(InitialMemory(), messages);
  }

  /** Sending the same edit request twice edits the same section both times, and
      its content carries the request twice. */
  lemma RepeatedEditRequest(m: Memory, message: string)
    requires WellFormed(m)
    requires RoutesToEdit(m, message)
    ensures
      var first := ProcessTeacherMessage(m, message);
      var second := ProcessTeacherMessage(first.memory, message);
      var t := TargetIndex(m.sections);
      && first.response.mode == Edit && second.response.mode == Edit
      && first.response.meta.changedSectionId == second.response.meta.changedSectionId
      && second.memory.sections[t].html == m.sections[t].html + Addendum(message) + Addendum(message)
  {
    var first := ProcessTeacherMessage(m, message);
    RepeatedEditAccumulates(m.sections, message);
    assert first.memory.sections == ApplyScopedEdit(m.sections, message);
    assert SectionIds(first.memory.sections)[TargetIndex(m.sections)] == SectionIds(m.sections)[TargetIndex(m.sections)];
  }
}

=== FILE: outline.dfy ===
/** Outline construction (`buildOutline`, `sectionTheme`): the number of sections
    follows the duration, and every block's id, title, purpose and transition follow
    from its position. */
module Outline {
  import opened Text
  import opened Extraction

  datatype Block = Block(id: string, title: string, purpose: string, transition: string)

  /** The title labels, used in turn by position. */
  const Labels: seq<string> := [
    "Spark curiosity", "Core concept", "Mechanism", "Guided walkthrough",
    "Practice moment", "Misconceptions", "Real-world bridge", "Assessment"
  ]
  const FallbackLabel: string := "Extension"

  const OpeningPurpose: string := "Hook and context"
  const MiddlePurpose: string := "Concept building"
  const ClosingPurpose: string := "Synthesis and action"
  const OpeningTransition: string := "Opening scene"
  const TransitionPrefix: string := "Smooth transition from part "
  const IdPrefix: string := "sec_"

  const MinSections: nat := 4
  const MaxSections: nat := 9

  function Clamp(x: int, lo: int, hi: int): (r: int)
    requires lo <= hi
    ensures lo <= r <= hi
    ensures lo <= x <= hi ==> r == x
  {
    if x < lo then lo else if x > hi then hi else x
  }

  /** `Math.round`: the nearest integer, halves rounded up. */
  function RoundHalfUp(x: real): int {
    (x + 0.5).Floor
  }

  /** For a whole number of minutes, rounding half of it is integer arithmetic. */
  lemma RoundHalfOfNat(d: nat)
    ensures RoundHalfUp(d as real / 2.0) == (d + 1) / 2
  {
    var q := (d + 1) / 2;
    var r := (d + 1) % 2;
    assert d + 1 == 2 * q + r;
    assert d as real / 2.0 + 0.5 == q as real + r as real / 2.0;
  }

  /** The number of sections for a duration: half the minutes, rounded, kept
      between four and nine. */
  function SectionCount(durationMinutes: nat): (n: nat)
    ensures MinSections <= n <= MaxSections
    ensures n == Clamp(RoundHalfUp(durationMinutes as real / 2.0), MinSections, MaxSections)
  {
    RoundHalfOfNat(durationMinutes);
    Clamp((durationMinutes + 1) / 2, MinSections, MaxSections)
  }

  /** Ten minutes make five sections, two make four, thirty make nine. */
  lemma SectionCountExamples()
    ensures SectionCount(10) == 5 && SectionCount(2) == 4 && SectionCount(30) == 9
  {
  }

  /** The label of the section at `index`: the label rotation, then the fallback. */
  function ThemeLabel(index: nat): (r: string)
    ensures index < |Labels| ==> r == Labels[index]
    ensures index >= |Labels| ==> r == FallbackLabel
  {
    if index < |Labels| then Labels[index] else FallbackLabel
  }

  /** `sectionTheme(index, topic)`. */
  function SectionTheme(index: nat, topic: string): (r: string)
    ensures index < |Labels| ==> r == Labels[index] + " — " + topic
    ensures index >= |Labels| ==> r == FallbackLabel + " — " + topic
  {
    ThemeLabel(index) + " — " + topic
  }

  /** The block at position `i` of an outline of `n` blocks. */
  function OutlineBlock(i: nat, n: nat, topic: string): (b: Block)
    ensures i == 0 ==> b.purpose == OpeningPurpose && b.transition == OpeningTransition
    ensures 0 < i && i + 1 == n ==> b.purpose == ClosingPurpose
    ensures 0 < i && i + 1 != n ==> b.purpose == MiddlePurpose
    ensures 0 < i ==> |b.transition| > |TransitionPrefix| && b.transition[..|TransitionPrefix|] == TransitionPrefix
  {
    Block(
      IdPrefix + NatToString(i + 1),
      "Part " + NatToString(i + 1) + ": " + SectionTheme(i, topic),
      if i == 0 then OpeningPurpose else if i == n - 1 then ClosingPurpose else MiddlePurpose,
      if i == 0 then OpeningTransition else TransitionPrefix + NatToString(i))
  }

  function Ids(blocks: seq<Block>): (r: seq<string>)
    ensures |r| == |blocks|
    ensures forall i :: 0 <= i < |blocks| ==> r[i] == blocks[i].id
  {
    seq(|blocks|, i requires 0 <= i < |blocks| => blocks[i].id)
  }

  /** `buildOutline(intake)` without its model call and progress events. */
  function BuildOutline(c: Constraints): (r: seq<Block>)
    ensures |r| == SectionCount(c.durationMinutes)
    ensures r[0].purpose == OpeningPurpose && r[0].transition == OpeningTransition
    ensures r[|r| - 1].purpose == ClosingPurpose
    ensures forall i :: 0 < i < |r| - 1 ==> r[i].purpose == MiddlePurpose
  {
    var n := SectionCount(c.durationMinutes);
    seq(n, i requires 0 <= i < n => OutlineBlock(i, n, c.topic))
  }

  /** The block at position `i` has id `sec_` followed by `i + 1` in decimal. */
  lemma OutlineIdAt(c: Constraints, i: nat)
    requires i < |BuildOutline(c)|
    ensures BuildOutline(c)[i].id == IdPrefix + NatToString(i + 1)
  {
  }

  /** Every outline id is `sec_` followed by the block's 1-based position, which can
      be read back from it. */
  lemma OutlineIdsNamePositions(c: Constraints)
    ensures forall i :: 0 <= i < |BuildOutline(c)| ==>
      var id := BuildOutline(c)[i].id;
      && |id| > |IdPrefix|
      && id[..|IdPrefix|] == IdPrefix
      && All(id, |IdPrefix|, |id|, IsDigit)
      && DigitsValue(id[|IdPrefix|..]) == i + 1
  {
    var r := BuildOutline(c);
    forall i | 0 <= i < |r|
      ensures |r[i].id| > |IdPrefix| && r[i].id[..|IdPrefix|] == IdPrefix
      ensures All(r[i].id, |IdPrefix|, |r[i].id|, IsDigit)
      ensures DigitsValue(r[i].id[|IdPrefix|..]) == i + 1
    {
      var digits := NatToString(i + 1);
      assert r[i].id == IdPrefix + digits;
      assert r[i].id[|IdPrefix|..] == digits;
      DigitsValueOfNatToString(i + 1);
    }
  }

  /** No two blocks of an outline share an id. */
  lemma OutlineIdsDistinct(c: Constraints)
    ensures Distinct(Ids(BuildOutline(c)))
  {
    var r := BuildOutline(c);
    OutlineIdsNamePositions(c);
    forall i, j | 0 <= i < j < |r| ensures r[i].id != r[j].id {
      assert DigitsValue(r[i].id[|IdPrefix|..]) != DigitsValue(r[j].id[|IdPrefix|..]);
    }
  }

  /** Every transition after the first names the part that precedes it, by the
      number in that part's id. */
  lemma OutlineTransitionsNamePredecessor(c: Constraints)
    ensures forall i :: 0 < i < |BuildOutline(c)| ==>
      BuildOutline(c)[i].transition == TransitionPrefix + BuildOutline(c)[i - 1].id[|IdPrefix|..]
  {
    var r := BuildOutline(c);
    forall i | 0 < i < |r|
      ensures r[i].transition == TransitionPrefix + r[i - 1].id[|IdPrefix|..]
    {
      assert r[i - 1].id == IdPrefix + NatToString(i);
    }
  }

  /** Every title is `Part` and the block's number, then the label of its position
      (the rotation for the first eight, `Extension` after them), a dash and the
      topic. */
  lemma OutlineTitles(c: Constraints)
    ensures forall i :: 0 <= i < |BuildOutline(c)| ==>
      BuildOutline(c)[i].title
        == "Part " + BuildOutline(c)[i].id[|IdPrefix|..] + ": "
           + ((if i < |Labels| then Labels[i] else FallbackLabel) + " — " + c.topic)
  {
    var r := BuildOutline(c);
    forall i | 0 <= i < |r|
      ensures r[i].title == "Part " + r[i].id[|IdPrefix|..] + ": "
        + ((if i < |Labels| then Labels[i] else FallbackLabel) + " — " + c.topic)
    {
      assert r[i] == OutlineBlock(i, |r|, c.topic);
      assert r[i].id[|IdPrefix|..] == NatToString(i + 1);
    }
  }
}

=== FILE: sections.dfy ===
/** Section generation (`generateSections`) and verification (`verifyPresentation`):
    both map the list one element at a time, in order, and keep every outline field. */
module Sections {
  import opened Wrappers
  import opened Text
  import opened Gateway
  import opened Extraction
  import opened Outline

  /** A presentation section: its outline block, the generated content, and the
      verifier's note once verification has run. */
  datatype Section = Section(
    block: Block,
    html: string,
    image: ImageAsset,
    chart: ChartSpec,
    interaction: string,
    verificationNote: Option<string>)
  {
    function Id(): string {
      block.id
    }
  }

  /** The result of `verifyPresentation`, and the `meta` of both kinds of response. */
  datatype Meta =
    | BuildMeta(mode: string, tokensSavedByPatchProtocol: string, validatorCount: nat)
    | PatchMeta(mode: string, changedSectionId: string, tokenStrategy: string)

  datatype Verification = Verification(patchedSections: seq<Section>, teacherMessage: string, meta: Meta)

  const SectionPurpose: string := "section_content"
  const HtmlOpen: string := "<p>"
  const HtmlTail: string := ". This section moves naturally into the next concept with guided pacing for teachers.</p>"
  const PromptOpen: string := "Ask learners: \"What changed from "
  const PromptClose: string := " and why?\""
  const PassedNote: string := "Passed baseline checks with suggested micro-pacing pauses."
  const BuiltMessage: string :=
    "Presentation generated. I asked dynamic clarifications, orchestrated specialized agents, and verified quality before rendering. You can now request edits for any section."

  /** The purposes of the three validator calls that run side by side. */
  const VerifierPurposes: seq<string> := ["verify_pedagogy", "verify_visual_coherence", "verify_timing"]

  function SectionIds(sections: seq<Section>): (r: seq<string>)
    ensures |r| == |sections|
    ensures forall i :: 0 <= i < |sections| ==> r[i] == sections[i].Id()
  {
    seq(|sections|, i requires 0 <= i < |sections| => sections[i].Id())
  }

  /** The reflective prompt for a block: it names the block id with its first
      underscore turned into a space. */
  function InteractionPrompt(id: string): (r: string)
    ensures |r| == |PromptOpen| + |id| + |PromptClose|
    ensures r[..|PromptOpen|] == PromptOpen && r[|r| - |PromptClose|..] == PromptClose
    ensures '_' !in id ==> r[|PromptOpen|..|PromptOpen| + |id|] == id
  {
    var middle := ReplaceFirst(id, '_', ' ');
    var r := PromptOpen + middle + PromptClose;
    assert r[|PromptOpen|..|PromptOpen| + |id|] == middle;
    r
  }

  /** One loop iteration of `generateSections`: the block's fields, the wrapped
      text of the content call, and the two asset payloads. */
  function GenerateSection(b: Block): (s: Section)
    ensures s.block == b
    ensures s.verificationNote.None?
    ensures s.image.kind == "image" && s.image.prompt == b.title + " classroom visual"
    ensures s.chart.kind == "chart" && s.chart.spec.title == "Concept curve for " + b.title
    ensures s.interaction == InteractionPrompt(b.id)
    ensures |s.html| == |HtmlOpen| + |ModelOutput(SectionPurpose)| + |HtmlTail|
    ensures s.html[..|HtmlOpen|] == HtmlOpen && s.html[|s.html| - |HtmlTail|..] == HtmlTail
    ensures s.html[|HtmlOpen|..|s.html| - |HtmlTail|] == ModelOutput(SectionPurpose)
  {
    var html := HtmlOpen + ModelOutput(SectionPurpose) + HtmlTail;
    assert html[|HtmlOpen|..|html| - |HtmlTail|] == ModelOutput(SectionPurpose);
    Section(
      b,
      html,
      GenerateImage(b.title + " classroom visual"),
      GenerateChartSpec(b.title),
      InteractionPrompt(b.id),
      None)
  }

  /** `generateSections(outline)`: one section per block, in outline order. */
  function GenerateSections(outline: seq<Block>): (r: seq<Section>)
    ensures |r| == |outline|
    ensures forall i :: 0 <= i < |r| ==> r[i] == GenerateSection(outline[i])
  {
    seq(|outline|, i requires 0 <= i < |outline| => GenerateSection(outline[i]))
  }

  /** Generation keeps the outline: same length, same order, every block field. */
  lemma GenerationKeepsOutline(outline: seq<Block>)
    ensures |GenerateSections(outline)| == |outline|
    ensures forall i :: 0 <= i < |outline| ==>
      GenerateSections(outline)[i].block == outline[i] && GenerateSections(outline)[i].verificationNote.None?
    ensures SectionIds(GenerateSections(outline)) == Ids(outline)
  {
  }

  /** For the ids an outline hands out, the interaction prompt names the part as
      `sec N`: the one underscore becomes a space and the number is kept. */
  lemma InteractionNamesPart(n: nat)
    ensures InteractionPrompt(IdPrefix + NatToString(n))
      == "Ask learners: \"What changed from sec " + NatToString(n) + " and why?\""
  {
    var digits := NatToString(n);
    var id := IdPrefix + digits;
    assert id[3] == '_';
    assert '_' !in id[..3] by {
      assert id[..3] == "sec";
    }
    assert id[..3] + [' '] + id[4..] == "sec " + digits;
  }

  /** `verifyPresentation(sections, intake)` without its progress events: the three
      validator calls are counted, never inspected, and every section gets the
      fixed note. */
  function VerifyPresentation(sections: seq<Section>, c: Constraints): (v: Verification)
    ensures |v.patchedSections| == |sections|
    ensures forall i :: 0 <= i < |sections| ==>
      v.patchedSections[i] == sections[i].(verificationNote := Some(PassedNote))
    ensures v.meta.BuildMeta? && v.meta.validatorCount == 3
  {
    var checks := seq(|VerifierPurposes|, k requires 0 <= k < |VerifierPurposes| => ModelOutput(VerifierPurposes[k]));
    var patched := seq(|sections|, i requires 0 <= i < |sections| => sections[i].(verificationNote := Some(PassedNote)));
    Verification(patched, BuiltMessage, BuildMeta("continuous_canvas_story", "high", |checks|))
  }

  /** Verifying an already verified list changes nothing. */
  lemma VerifyIsIdempotent(sections: seq<Section>, c: Constraints)
    ensures
      var once := VerifyPresentation(sections, c).patchedSections;
      VerifyPresentation(once, c).patchedSections == once
  {
  }

  /** Verification keeps length, order and ids, and leaves every section verified. */
  lemma VerifyKeepsIds(sections: seq<Section>, c: Constraints)
    ensures SectionIds(VerifyPresentation(sections, c).patchedSections) == SectionIds(sections)
    ensures forall s :: s in VerifyPresentation(sections, c).patchedSections ==> s.verificationNote == Some(PassedNote)
  {
  }
}

=== FILE: text.dfy ===
/** Character classes and string scanning used by the orchestrator's pattern tests.

    The orchestrator tests messages with JavaScript regular expressions carrying the
    `i` flag and no `u` flag. For a pattern letter in ASCII, such a test accepts
    exactly the characters that agree with it after ASCII case folding: a non-ASCII
    character never canonicalises to an ASCII one. So case-insensitive matching is
    modelled here with ASCII lower-casing only. */
module Text {
  import opened Wrappers

  /** ASCII lower-casing; every other character is left as it is. */
  function LowerChar(c: char): (r: char)
    ensures 'A' <= c <= 'Z' ==> r != c && 'a' <= r <= 'z'
    ensures !('A' <= c <= 'Z') ==> r == c
  {
    if 'A' <= c <= 'Z' then (c as int + 32) as char else c
  }

  /** ASCII upper-casing; every other character is left as it is. */
  function UpperChar(c: char): (r: char)
    ensures 'a' <= c <= 'z' ==> r != c && 'A' <= r <= 'Z'
    ensures !('a' <= c <= 'z') ==> r == c
  {
    if 'a' <= c <= 'z' then (c as int - 32) as char else c
  }

  /** Upper-casing and then lower-casing a character is the same as lower-casing it,
      so the two spellings of a letter are indistinguishable to a case-insensitive test. */
  lemma LowerOfUpper(c: char)
    ensures LowerChar(UpperChar(c)) == LowerChar(c)
  {
  }

  /** The whole string upper-cased letter by letter. */
  function UpperString(s: string): (r: string)
    ensures |r| == |s|
    ensures forall k :: 0 <= k < |s| ==> r[k] == UpperChar(s[k])
  {
    seq(|s|, k requires 0 <= k < |s| => UpperChar(s[k]))
  }

  /** `\d` of a JavaScript regular expression: the ASCII digits only. */
  predicate IsDigit(c: char) {
    '0' <= c <= '9'
  }

  /** `\s` of a JavaScript regular expression: the WhiteSpace and LineTerminator
      code points of ECMA-262 (tab, line feed, vertical tab,
      form feed, carriage return, space, no-break space, the Zs separators,
      line and paragraph separators, and the byte order mark). */
  predicate IsSpace(c: char)
    ensures IsSpace(c) ==> !IsDigit(c) && LowerChar(c) == c
  {
    var n := c as int;
    || (0x09 <= n <= 0x0D)
    || n == 0x20 || n == 0xA0 || n == 0x1680
    || (0x2000 <= n <= 0x200A)
    || n == 0x2028 || n == 0x2029 || n == 0x202F || n == 0x205F
    || n == 0x3000 || n == 0xFEFF
  }

  /** `pat` occurs in `s` starting at position `i`, letters compared without case. */
  predicate OccursAt(s: string, pat: string, i: nat) {
    && i + |pat| <= |s|
    && forall k :: 0 <= k < |pat| ==> LowerChar(s[i + k]) == LowerChar(pat[k])
  }

  /** Every character of `s` in positions `lo` (inclusive) to `hi` (exclusive)
      satisfies `p`. */
  predicate All(s: string, lo: nat, hi: nat, p: char -> bool)
    requires lo <= hi <= |s|
  {
    forall k :: lo <= k < hi ==> p(s[k])
  }

  /** The least position in [from, bound) that satisfies `p`: the scan a regular
      expression engine performs when it tries successive start positions and
      keeps the first one at which the pattern matches. */
  function Leftmost(p: nat -> bool, from: nat, bound: nat): (r: Option<nat>)
    decreases bound - from
    ensures r.Some? ==> from <= r.value < bound && p(r.value)
    ensures r.Some? ==> forall j :: from <= j < r.value ==> !p(j)
    ensures r.None? ==> forall j :: from <= j < bound ==> !p(j)
  {
    if from >= bound then None
    else if p(from) then Some(from)
    else Leftmost(p, from + 1, bound)
  }

  /** Case-insensitive substring test: what `/pat/i.test(s)` decides for a pattern
      made of plain letters. */
  predicate ContainsCI(s: string, pat: string)
    ensures ContainsCI(s, pat) <==> exists i :: OccursAt(s, pat, i)
  {
    var at := (i: nat) => OccursAt(s, pat, i);
    var r := Leftmost(at, 0, |s| + 1);
    assert (exists i :: OccursAt(s, pat, i)) ==> r.Some? by {
      if exists i :: OccursAt(s, pat, i) {
        var i: nat :| OccursAt(s, pat, i);
        assert i < |s| + 1 && at(i);
      }
    }
    r.Some?
  }

  /** `s` mentions one of `words`, letters compared without case. */
  ghost predicate Mentions(s: string, words: seq<string>) {
    exists k, i :: 0 <= k < |words| && OccursAt(s, words[k], i)
  }

  /** The test `/w1|w2|.../i.test(s)`: an alternation of plain words matches
      somewhere exactly when one of the words occurs somewhere. */
  predicate ContainsAnyCI(s: string, words: seq<string>)
    ensures ContainsAnyCI(s, words) <==> Mentions(s, words)
  {
    exists k :: 0 <= k < |words| && ContainsCI(s, words[k])
  }

  /** Changing the case of any letters of the message never changes whether a
      word occurs in it. */
  lemma OccursAtIgnoresCase(s: string, pat: string, i: nat)
    ensures OccursAt(UpperString(s), pat, i) <==> OccursAt(s, pat, i)
  {
    if i + |pat| <= |s| {
      forall j | i <= j < i + |pat|
        ensures LowerChar(UpperString(s)[j]) == LowerChar(s[j])
      {
        LowerOfUpper(s[j]);
      }
    }
  }

  /** A case-insensitive word test answers the same for a message and for its
      upper-cased spelling. */
  lemma ContainsAnyIgnoresCase(s: string, words: seq<string>)
    ensures ContainsAnyCI(UpperString(s), words) <==> ContainsAnyCI(s, words)
  {
    forall k, i | 0 <= k < |words|
      ensures OccursAt(UpperString(s), words[k], i) <==> OccursAt(s, words[k], i)
    {
      OccursAtIgnoresCase(s, words[k], i);
    }
  }

  /** The length of the longest run of characters satisfying `p` that starts at `j`:
      what a greedy quantifier such as `\s*` or `\d+` consumes there. */
  function RunFrom(s: string, j: nat, p: char -> bool): (n: nat)
    requires j <= |s|
    decreases |s| - j
    ensures j + n <= |s|
    ensures All(s, j, j + n, p)
    ensures j + n == |s| || !p(s[j + n])
  {
    if j == |s| || !p(s[j]) then 0 else 1 + RunFrom(s, j + 1, p)
  }

  /** A run of `p`-characters that is followed by a character outside `p` is the
      longest one: when what follows a greedy quantifier cannot itself satisfy `p`,
      backtracking has only one choice. */
  lemma {:induction false} RunIsForced(s: string, j: nat, w: nat, p: char -> bool)
    requires j + w < |s|
    requires All(s, j, j + w, p)
    requires !p(s[j + w])
    ensures w == RunFrom(s, j, p)
    decreases w
  {
    if w > 0 {
      RunIsForced(s, j + 1, w - 1, p);
    }
  }

  /** No run of `p`-characters starting at `j` is longer than the greedy one. */
  lemma {:induction false} RunIsLongest(s: string, j: nat, m: nat, p: char -> bool)
    requires j + m <= |s|
    requires All(s, j, j + m, p)
    ensures m <= RunFrom(s, j, p)
    decreases m
  {
    if m > 0 {
      RunIsLongest(s, j + 1, m - 1, p);
    }
  }

  /** No value appears twice in `xs`. */
  predicate Distinct<T(==)>(xs: seq<T>) {
    forall i, j :: 0 <= i < j < |xs| ==> xs[i] != xs[j]
  }

  /** The decimal digit character for `d`. */
  function DigitChar(d: nat): (c: char)
    requires d < 10
    ensures IsDigit(c)
  {
    ('0' as int + d) as char
  }

  /** The numeric value of one digit character. */
  function DigitValue(c: char): (d: nat)
    requires IsDigit(c)
    ensures d < 10
    ensures DigitChar(d) == c
  {
    c as int - '0' as int
  }

  /** Decimal rendering of a natural number, as JavaScript's template literals
      render an integer: no sign, no leading zero. */
  function NatToString(n: nat): (r: string)
    decreases n
    ensures 1 <= |r|
    ensures All(r, 0, |r|, IsDigit)
    ensures |r| > 1 ==> r[0] != '0'
  {
    if n < 10 then [DigitChar(n)] else NatToString(n / 10) + [DigitChar(n % 10)]
  }

  /** The value of a string of decimal digits, as `Number(...)` reads it (leading
      zeros contribute nothing). */
  function DigitsValue(s: string): (v: nat)
    requires All(s, 0, |s|, IsDigit)
    ensures |s| > 0 && s[0] == '0' ==> v == DigitsValue(s[1..])
  {
    if |s| == 0 then 0
    else
      var init := s[..|s| - 1];
      assert |s| > 1 ==> init[1..] == s[1..][..|s| - 2] && s[1..][|s| - 2] == s[|s| - 1];
      DigitsValue(init) * 10 + DigitValue(s[|s| - 1])
  }

  /** Reading back the decimal rendering of `n` gives `n`. */
  lemma {:induction false} DigitsValueOfNatToString(n: nat)
    ensures DigitsValue(NatToString(n)) == n
  {
    var r := NatToString(n);
    if n < 10 {
      assert r[..|r| - 1] == [];
    } else {
      var hd := NatToString(n / 10);
      assert r[..|r| - 1] == hd;
      assert r[|r| - 1] == DigitChar(n % 10);
      DigitsValueOfNatToString(n / 10);
    }
  }

  /** Distinct numbers render differently. */
  lemma NatToStringInjective(a: nat, b: nat)
    requires NatToString(a) == NatToString(b)
    ensures a == b
  {
    DigitsValueOfNatToString(a);
    DigitsValueOfNatToString(b);
  }

  /** Two digits read as tens and units. */
  lemma TwoDigitsValue(s: string)
    requires |s| == 2 && All(s, 0, 2, IsDigit)
    ensures DigitsValue(s) == 10 * DigitValue(s[0]) + DigitValue(s[1])
  {
    var head := s[..1];
    assert head[..0] == [] && head[0] == s[0];
    assert DigitsValue(head) == DigitValue(s[0]) by {
      assert DigitsValue(head) == DigitsValue(head[..0]) * 10 + DigitValue(head[0]);
    }
    assert DigitsValue(s) == DigitsValue(head) * 10 + DigitValue(s[1]);
  }

  /** At most two digits read as a number below one hundred. */
  lemma TwoDigitsBound(s: string)
    requires |s| <= 2
    requires All(s, 0, |s|, IsDigit)
    ensures DigitsValue(s) < 100
  {
    if |s| > 0 {
      assert DigitsValue(s[..|s| - 1]) < 10 by {
        if |s| == 2 {
          assert s[..1][..0] == [];
        }
      }
    }
  }

  /** `s` with the first occurrence of `from`, if any, replaced by `to`: what
      JavaScript's `String.prototype.replace` does when given a one-character string
      pattern. */
  function ReplaceFirst(s: string, from: char, to: char): (r: string)
    ensures |r| == |s|
    ensures from !in s ==> r == s
    ensures forall k :: 0 <= k < |s| && s[k] == from && from !in s[..k] ==> r == s[..k] + [to] + s[k + 1..]
  {
    var isFrom := (i: nat) => i < |s| && s[i] == from;
    var first := Leftmost(isFrom, 0, |s|);
    if first.None? then
      assert from !in s by {
        forall k | 0 <= k < |s| ensures s[k] != from {
          assert !isFrom(k);
        }
      }
      s
    else
      var f := first.value;
      assert forall k :: 0 <= k < |s| && s[k] == from && from !in s[..k] ==> k == f by {
        forall k | 0 <= k < |s| && s[k] == from && from !in s[..k] ensures k == f {
          assert isFrom(f) && isFrom(k);
          assert forall j :: 0 <= j < k ==> s[..k][j] == s[j];
        }
      }
      s[..f] + [to] + s[f + 1..]
  }
}

=== FILE: wrappers.dfy ===
/** The usual optional-value datatype, used wherever the orchestrator has a value
    that may be absent (a regular-expression match, a field not yet set). */
module Wrappers {

  datatype Option<+T> = None | Some(value: T)
}
